=== FILE: README.md ===
# City search of a weather page, modelled in Dafny

The page (PrevisaodoTempo) shows the weather for a Brazilian city. Its logic is modelled here:

- **Localities** (`helpers/cities.jsx`): `parseCities` turns the registry's municipality records into autocomplete entries `{label, value, lat, lon, state, stateSigla}`. It drops records without a name or id and sorts the rest by name with `localeCompare`.
- **CitiesDropDown** (`src/components/CitiesDropDown.jsx`): the autocomplete the page uses.
  - Suggestions: the trimmed query is folded (accents stripped, lower-cased) and matched by substring against folded labels. The list is capped at fifty.
  - Visibility rule for the list.
  - Validation of typed text.
  - Selection state `{query, shown, selectedIndex, hoverIndex}`, driven by typing, focus, blur, presses outside, the arrow keys, Escape, Enter, and pointer hover, leave and click.
  - The React effects run after each handler: first the visibility effect, then the effect that copies `hoverIndex` into `selectedIndex`. The 120 ms close timers fire at the end of the step.
- **CityAutocomplete** (`src/components/CityAutocomplete.jsx`): the alternative autocomplete. It uses an untrimmed, lower-cased substring filter capped at one hundred, its own visibility rule, and Enter hands the raw text to the search.
- **App** (`src/App.jsx`):
  - the "Buscar" button's validation;
  - routing of a dropdown selection to a coordinate search or a name search;
  - the start-up search at the user's position, or at São Paulo when the position is unavailable.
- **DailyForecast** (`src/components/WeatherInformations5Days.jsx`): keeps the first 3-hourly forecast of each calendar day, in order of first appearance, then shows days two to six.

The model also has helper modules:

- **JsText**: `String.prototype.trim` (the ECMAScript WhiteSpace and LineTerminator code points), `length` in UTF-16 code units, `includes`, and `replace` with a one-character pattern.
- **SeqOps**: filter, index positions, prefix, slice, and a stable insertion sort standing in for `Array.prototype.sort`.
- **Platform**: JavaScript numbers and their truthiness, plus the host primitives.

The host primitives are `normalize('NFD')`, `toLowerCase`, `localeCompare` and `parseFloat`. They are fields of a `Host` value, and the calendar day of a timestamp is a function parameter. So every property holds for any definition of them. Where sorting matters, `localeCompare` is assumed to be a total preorder (`LocaleOrder`).

`CitiesDropDown.Build` selects either the code as written (`AsWritten`) or the code with the three defects under "## Findings" corrected (`Corrected`). Each step of the dropdown takes a build. The lemmas about the page (`App`) hold for both builds.

## Model

| member | source | states |
|---|---|---|
| JsText.TrimStartCuts | src/components/CitiesDropDown.jsx:44 | The leading part that `trim` cuts is all whitespace or line terminators. What remains is a suffix of the text and does not start with such a character. |
| JsText.TrimEndCuts | src/components/CitiesDropDown.jsx:44 | The trailing part that `trim` cuts is all whitespace or line terminators. What remains is a prefix of the text and does not end with such a character. |
| JsText.TrimFrames | src/App.jsx:61 | The trimmed text sits inside the input with only strippable characters on either side. It neither starts nor ends with one. |
| JsText.TrimOfPadded | src/App.jsx:61 | Trimming a text padded on both sides with strippable characters gives back the text, provided the text is neither started nor ended by one. |
| JsText.Length | src/components/CitiesDropDown.jsx:45 | `length` counts UTF-16 code units, so it lies between the number of code points and twice that number. |
| JsText.LengthOfChar | src/components/CitiesDropDown.jsx:45 | A single code point is two code units above U+FFFF and one otherwise. With `LengthAppend`, this determines `length` on every text. |
| JsText.LengthIsCodePoints | src/components/CitiesDropDown.jsx:45 | `length` equals the number of code points exactly when no code point lies above U+FFFF. |
| JsText.LengthAppend | src/components/CitiesDropDown.jsx:45 | The code-unit length of a concatenation is the sum of the lengths. |
| JsText.TrimLength | src/components/CitiesDropDown.jsx:62-66 | Trimming never makes a text longer in code units. So a trimmed query of two or more units means the raw query has two or more. |
| JsText.TrimIdempotent | src/components/CitiesDropDown.jsx:155-156 | Trimming an already trimmed label (the committed query) changes nothing. |
| JsText.IncludesIffContains | src/components/CitiesDropDown.jsx:56 | `includes` is true exactly when the query occurs at some offset of the text. The empty query occurs everywhere. |
| JsText.ReplaceFirst | helpers/cities.jsx:22-23 | `replace(',', '.')` keeps the length. It changes nothing when there is no comma, and otherwise turns only the first comma into a dot. |
| JsText.ReplaceSoleOccurrence | helpers/cities.jsx:22 | A coordinate with at most one comma has no comma left after the replacement, and gains exactly one dot if it had a comma. |
| SeqOps.FilterMembers | helpers/cities.jsx:28 | `filter` keeps only elements that pass the test and keeps every element that passes. It adds nothing: the result is a sub-multiset of the input. |
| SeqOps.FilterSelectsPositions | src/components/CitiesDropDown.jsx:51-57 | The k-th element `filter` keeps is the input element at the k-th position that passes the test. Input order is preserved. |
| SeqOps.Take | src/components/CitiesDropDown.jsx:58 | `slice(0, n)` is the prefix of length min(n, length). |
| SeqOps.Slice | src/components/WeatherInformations5Days.jsx:21 | `slice(from, to)` holds at most `to - from` elements. It is exactly `s[from..to]` when the bounds fit, runs to the end when `to` is past it, and is empty when `from` is at or past the end or not below `to`. |
| SeqOps.SortBy | helpers/cities.jsx:30 | The sort is a permutation of its input. |
| SeqOps.SortBySorted | helpers/cities.jsx:30 | Under a total preorder, the sort's output is ordered. |
| SeqOps.SortByStable | helpers/cities.jsx:30 | Under a total preorder, elements the comparison ranks equal keep their input order. |
| Localities.Coordinate | helpers/cities.jsx:22-23 | A coordinate is `null` exactly when the record's text is missing or empty. Otherwise it is `parseFloat` of the text with its first comma made a dot. |
| Localities.ToEntry | helpers/cities.jsx:18-26 | Label and value are the record's `nome` and `id` unchanged. lat and lon are `null` exactly when the record's text is missing or empty. Otherwise they are `parseFloat` of the text with its first comma made a dot. state and stateSigla are `null` when the UF object, or its field, is missing or empty, and otherwise are the UF's `nome` and `sigla`. |
| Localities.ParseCities | helpers/cities.jsx:15-33 | Every entry has a non-empty label and a non-zero id. As a multiset, the output is exactly the mapped records that pass the filter. |
| Localities.ParseCitiesEntries | helpers/cities.jsx:16-30 | An entry is in the output if and only if it passes the filter and is the mapping of some registry record. |
| Localities.ParseCitiesCount | helpers/cities.jsx:28-30 | The output has one entry per surviving record. Duplicates are neither merged nor multiplied. |
| Localities.ByLabelPreorder | helpers/cities.jsx:10-12 | If `localeCompare` is a total preorder on strings, comparing entries by label is a total preorder on entries. |
| Localities.ParseCitiesSorted | helpers/cities.jsx:30 | `localeCompare` of an earlier label against any later label is at most zero. |
| Localities.ParseCitiesStable | helpers/cities.jsx:30 | Entries with labels that compare equal stay in registry order. |
| Localities.EntryCoordinates | helpers/cities.jsx:22-23 | Each coordinate is treated on its own: a latitude, or a longitude, that is present with at most one decimal comma becomes `parseFloat` of the text with no comma left, whatever the other coordinate is. |
| CitiesDropDown.ParsedListIsLabelled | src/components/CitiesDropDown.jsx:29-33 | Every entry of the loaded list has a label, as the filter and Enter require. |
| CitiesDropDown.StripMarks | src/components/CitiesDropDown.jsx:48-54 | The accent strip is the filter that drops combining marks U+0300 to U+036F. |
| CitiesDropDown.StripMarksKeepsTheRest | src/components/CitiesDropDown.jsx:48-54 | The stripped text has no combining mark and keeps every other character. |
| CitiesDropDown.StripMarksInOrder | src/components/CitiesDropDown.jsx:48-54 | The kept characters stay in order: the k-th character of the stripped text is the text's k-th unmarked one. |
| CitiesDropDown.Suggestions | src/components/CitiesDropDown.jsx:43-58 | A trimmed query shorter than two UTF-16 code units yields no suggestions. There are never more than fifty. |
| CitiesDropDown.SuggestionsMatch | src/components/CitiesDropDown.jsx:48-57 | Each suggestion is an entry of the list whose folded label contains the folded, trimmed query. |
| CitiesDropDown.SuggestionsComplete | src/components/CitiesDropDown.jsx:51-58 | Below the cap, every matching entry is suggested. |
| CitiesDropDown.SuggestionsAreFirstMatches | src/components/CitiesDropDown.jsx:51-58 | The suggestions are the first min(50, matches) matching entries, in list order. |
| CitiesDropDown.ShownIffSuggestions | src/components/CitiesDropDown.jsx:62-66 | The visibility effect shows the list exactly when there are suggestions. The untrimmed length test adds nothing. |
| CitiesDropDown.ValidateQuery | src/components/CitiesDropDown.jsx:69-75 | The message "Digite pelo menos 3 caracteres" is given exactly when the trimmed text has fewer than three UTF-16 code units. |
| CitiesDropDown.AstralCharacterCountsTwice | src/components/CitiesDropDown.jsx:69-75 | A letter followed by an emoji is two code points but three code units, so the validation accepts it. |
| CitiesDropDown.ArrowDownIndex | src/components/CitiesDropDown.jsx:209 | ArrowDown advances by one up to the last item and never wraps. From an index in [-1, n-1] it stays in that range, and on a non-empty list it lands on an item. |
| CitiesDropDown.ArrowUpIndex | src/components/CitiesDropDown.jsx:219 | As written, ArrowUp moves back one but never below 0, so -1 goes to 0 even on an empty list. The corrected build stays at -1 on an empty list and otherwise stays in range. |
| CitiesDropDown.Commit | src/components/CitiesDropDown.jsx:155-162 | A committed candidate yields its trimmed label. Coordinates are passed exactly when both lat and lon are numbers. |
| CitiesDropDown.Sync | src/components/CitiesDropDown.jsx:144-148 | After the hover effect, the hovered index (if any) is the selected one. Nothing else changes, and a settled state is left alone. |
| CitiesDropDown.OnEnter | src/components/CitiesDropDown.jsx:151-175 | Enter always emits something. It throws exactly when the index points past the list. It reports the message exactly when nothing is highlighted and the trimmed text is under three code units. A selection resets the index and starts the close timer; a report or a throw changes nothing. |
| CitiesDropDown.Handle | src/components/CitiesDropDown.jsx:186-273 | Only Enter and a click on an item emit anything or start a timer, and a click always selects. Only typing or a selection changes the query. |
| CitiesDropDown.Settle | src/components/CitiesDropDown.jsx:62-148 | After the effects, the selected index is the hovered one when an item is hovered and the handler's otherwise. The query and hover are the handler's. After a change of query the list is shown exactly when it has suggestions, and otherwise visibility is the handler's. |
| CitiesDropDown.Step | src/components/CitiesDropDown.jsx:144-273 | After a whole step the hover effect has nothing left to copy. Every selection closes the list, and only Enter and a click emit. A rejected or throwing Enter changes nothing except what the hover effect would copy. |
| CitiesDropDown.ArrowKeysMoveCursor | src/components/CitiesDropDown.jsx:206-222 | ArrowDown and ArrowUp set both the selected and the hovered index to `ArrowDownIndex` or `ArrowUpIndex` of the current list. They emit nothing and change nothing else. |
| CitiesDropDown.HoverSelects | src/components/CitiesDropDown.jsx:254-257 | Hovering a rendered item k sets both indices to k. It emits nothing and changes nothing else. |
| CitiesDropDown.StepKeepsWellformed | src/components/CitiesDropDown.jsx:144-148 | In either build, every step keeps both indices at -1 or above and leaves the hover effect nothing to do. |
| CitiesDropDown.DismissCloses | src/components/CitiesDropDown.jsx:225-229 | Escape, a press outside and a blur away from the list close the list, emit nothing and keep the query. The index becomes -1 unless an item is still hovered in the as-written build, where it becomes the hovered index. |
| CitiesDropDown.ArrowDownThenEscapeKeepsIndex | src/components/CitiesDropDown.jsx:144-148 | As written: after ArrowDown on a non-empty list, Escape leaves the highlighted index in place instead of -1. |
| CitiesDropDown.EnterCommitsHighlighted | src/components/CitiesDropDown.jsx:151-162 | Enter with a valid highlighted index emits the candidate's trimmed label, with its coordinates when both are numbers. The label becomes the query, already trimmed, and the list closes. The index becomes -1 unless an item is still hovered in the as-written build, where it becomes the hovered index. |
| CitiesDropDown.ClickCommits | src/components/CitiesDropDown.jsx:259-273 | A click on a rendered item emits that item's trimmed label, with its coordinates when both are numbers. The label becomes the query, already trimmed, and the reset timer closes the list. The index becomes -1 unless an item is still hovered in the as-written build, where it becomes the hovered index. |
| CitiesDropDown.EnterRejectsShortText | src/components/CitiesDropDown.jsx:164-168 | Enter with no highlight and a trimmed query under three code units reports the message and leaves the whole state unchanged. |
| CitiesDropDown.EnterSubmitsText | src/components/CitiesDropDown.jsx:170-174 | Enter with no highlight and a valid query emits the trimmed text without coordinates, closes the list and resets the index to -1. |
| CitiesDropDown.ArrowUpOnEmptyListFaults | src/components/CitiesDropDown.jsx:216-221 | As written: ArrowUp on an empty list, from an index of -1, 0 or 1, selects 0, and a following Enter reads past the end of the list. From a stale index of two or more it selects the index below instead. |
| CitiesDropDown.ShrinkThenEnterFaults | src/components/CitiesDropDown.jsx:188-193 | As written: typing keeps the selected index. When the new list is too short for it, Enter reads past the end. |
| CitiesDropDown.CorrectedKeepsInRange | src/components/CitiesDropDown.jsx:151-174 | In the corrected build, every event keeps both indices at -1 or on an item of the current list. |
| CitiesDropDown.CorrectedEnterNeverFaults | src/components/CitiesDropDown.jsx:152-155 | In the corrected build, Enter never reads past the end of the list. |
| CitiesDropDown.CorrectedRunNeverFaults | src/components/CitiesDropDown.jsx:200-229 | In the corrected build, no sequence of events ever throws, and the indices stay in range throughout. |
| CitiesDropDown.FreshArrowUpEnterFaults | src/components/CitiesDropDown.jsx:219 | As written: a freshly mounted dropdown throws on ArrowUp followed by Enter, whatever the city list. |
| CityAutocomplete.Results | src/components/CityAutocomplete.jsx:62-68 | A query (untrimmed) shorter than two UTF-16 code units yields nothing. There are never more than one hundred results. |
| CityAutocomplete.ResultsMatch | src/components/CityAutocomplete.jsx:64-66 | Each result is a place of the list whose lower-cased name contains the lower-cased raw query. |
| CityAutocomplete.ResultsComplete | src/components/CityAutocomplete.jsx:65-67 | Below the cap, every matching place is a result. |
| CityAutocomplete.ResultsAreFirstMatches | src/components/CityAutocomplete.jsx:65-67 | The results are the first min(100, matches) matching places, in list order. |
| CityAutocomplete.BlankQueryStillFilters | src/components/CityAutocomplete.jsx:63 | The length gate is on the untrimmed text, so a query of two spaces still shows the places whose names contain two spaces. |
| CityAutocomplete.Step | src/components/CityAutocomplete.jsx:71-118 | Only Enter searches: it hands over the query and changes nothing. Only typing changes the query or hides the list, and typing the same text changes nothing. |
| CityAutocomplete.EnterSearchesRawText | src/components/CityAutocomplete.jsx:117 | Enter hands the query to the search exactly as typed, without validation, and leaves the state alone. No other key searches. |
| CityAutocomplete.ChangeShowsIffResults | src/components/CityAutocomplete.jsx:71-75 | After the query changes, the list is shown exactly when there are results. |
| CityAutocomplete.StepKeepsShortQueryHidden | src/components/CityAutocomplete.jsx:118 | The list is never shown for a query under two code units. |
| CityAutocomplete.FocusCanShowEmptyList | src/components/CityAutocomplete.jsx:118 | Focus shows the list for a two-unit query even when nothing matches, because the focus handler does not look at the results. |
| CityAutocomplete.EnterOnInitialSearchesEmptyText | src/components/CityAutocomplete.jsx:117 | On a freshly mounted component, Enter hands the empty text to the search and changes nothing. |
| App.HandleSearch | src/App.jsx:60-79 | A missing or blank input sets "Digite o nome de uma cidade". One or two trimmed UTF-16 code units set "Digite pelo menos 3 caracteres". Three or more clear the error and search by the trimmed name. No other outcome occurs. |
| App.ButtonAgreesWithDropdownValidation | src/App.jsx:64-72 | The button accepts exactly the texts the dropdown's Enter accepts. They give the same message except for a blank text. |
| App.OnSelect | src/App.jsx:91-100 | A selection is searched by coordinates exactly when both are present and truthy, and otherwise by its label. |
| App.ZeroCoordinateSearchesByName | src/App.jsx:93 | A city with a latitude or longitude of zero is searched by name. |
| App.DropdownEnterMatchesButton | src/App.jsx:91-100 | With nothing highlighted, the dropdown's Enter starts a search exactly when the button would, and it is the same name search. |
| App.DropdownCommitSearchesAtCity | src/App.jsx:93-98 | Enter on a highlighted city with truthy (non-zero, not NaN) coordinates searches at them. A city without coordinates is searched by its trimmed label. |
| App.StartupRequest | src/App.jsx:37-54 | The start-up search is always by coordinates: the user's position when it is known, and (-23.533773, -46.625290) when geolocation is missing or fails. |
| DailyForecast.FirstPerDay | src/components/WeatherInformations5Days.jsx:13-18 | At most one forecast is kept per day, and every day of the list is kept. |
| DailyForecast.FirstIndices | src/components/WeatherInformations5Days.jsx:15-17 | The positions of the first forecast of each day are increasing, and they are all of them. |
| DailyForecast.FirstPerDayAtFirstIndices | src/components/WeatherInformations5Days.jsx:10-21 | The k-th kept forecast is the list's forecast at the k-th first-of-its-day position. So each kept forecast is the first of its day, and the days come in order of first appearance. |
| DailyForecast.GroupByDay | src/components/WeatherInformations5Days.jsx:10-21 | The loop over the list that fills the day-keyed object, read back in key insertion order, yields exactly the first forecast per day. |
| DailyForecast.NextFiveDays | src/components/WeatherInformations5Days.jsx:21 | The shown days are days two onward of the grouped list. There are none for one day or fewer, n - 1 for n days up to five, and exactly five for six or more. |
| DailyForecast.NextFiveDaysSkipsToday | src/components/WeatherInformations5Days.jsx:21 | The shown days never include the day of the first forecast, and no day is shown twice. |

## Left out

- Loading is not modelled. This covers `fetchCities` (HTTP with the browser cache), the gzip fetch, inflate and JSON parse of the alternative component, their fallback lists, and the loading flag. They are I/O over libraries with no source here, so each component takes its city list as a parameter.
- `searchByCoordinates` and `searchCityByName` are called by `src/App.jsx` but defined in no file shown (`src/hooks/useWeather.jsx` exports only `searchCity`). The model stops at the request the page would start, `App.Request`. `src/hooks/useWeather.jsx` (axios, `Promise.all`, the error state) is not part of this model.
- The timed error clearing done by `setError` is left out, because it happens in code that is not available.
- DOM behaviour is not modelled: `scrollIntoView`, the wheel listener, `focus()` after a click, the event-path inspection behind "press outside", and the blur check on `document.activeElement`. Whether a press or blur happened outside the list is a boolean on the event. A scroll outside the open list closes it and resets the index just as a press outside does; it has no event of its own.
- The 120 ms timers fire at the end of the step that set them. An event arriving within those 120 ms is not modelled.
- `src/components/DebouncedInput.jsx` is not part of this model.
- Rendering is left out: the markup, icon URLs, the forecast card text and `Math.round` of temperatures. A pointer event on a suggestion only happens when the list is rendered (`CitiesDropDown.Deliverable`). The run function skips other such events.
- The host primitives are abstract. NFD normalisation, `toLowerCase`, `localeCompare`, `parseFloat` and `toLocaleDateString` are arbitrary functions. The only assumption is that sorting takes `localeCompare` to be a total preorder.
- The registry's coordinates are taken to be text. `String(x)` of a numeric coordinate is not modelled.
- `Object.values` is taken to list the date keys in insertion order. That is the rule for keys that are not array indices, and a date string never is.
- The dropdown requires that every entry has a label (`CitiesDropDown.Labelled`), because reading `label` of an entry without one throws. `CitiesDropDown.ParsedListIsLabelled` shows that the list built by `parseCities` meets this requirement.
- CityAutocomplete's click on a row, its outside-press handler and the list height computation are left out. Only the filter, the visibility effect, focus and the Enter rule are modelled. A selection in that component is not routed by `App` in the code shown.
- `App` also passes `setError` as the dropdown's `onError`. The message then shown is the dropdown's own, so it is modelled as `Reject(message)` in the dropdown and not again in `App`.
- Lone surrogates are left out. A Dafny `string` holds code points, so a text with an unpaired UTF-16 surrogate cannot be represented; `JsText.Length` counts every other text as `length` does.
- CityAutocomplete.Place: a city whose `name` is missing makes `city.name.toLowerCase()` throw inside the filter. The model gives every place a name, so that error is not modelled.
- CitiesDropDown.EnterCommitsHighlighted: the promise of the comments in the code, that the index returns to -1 after a commit, holds only in the corrected build or when nothing is hovered. The as-written case is stated as it behaves.
- CitiesDropDown.ClickCommits: as for Enter, the timer's reset of the index to -1 is undone by the as-written hover effect while an item is hovered, which after a click it usually is. The as-written case is stated as it behaves.
- CitiesDropDown.DismissCloses: the promise of the comments in the code, that Escape, a press outside and a blur reset the index to -1, holds only in the corrected build or when nothing is hovered. The as-written case is stated as it behaves. See the findings.

## Findings

| source | as written | input that shows it | evidently intended | confidence | as-written member | corrected member |
|---|---|---|---|---|---|---|
| src/components/CitiesDropDown.jsx:219 | `Math.max(selectedIndex - 1, 0)` selects index 0 even when the list is empty | freshly mounted dropdown (empty query), ArrowUp, then Enter: `filteredCities[0]` is `undefined` and reading `.label` at line 155 throws | the index stays at -1 on an empty list | not executed | CitiesDropDown.FreshArrowUpEnterFaults | CitiesDropDown.CorrectedEnterNeverFaults |
| src/components/CitiesDropDown.jsx:188-193 | `onChange` updates the query but keeps `selectedIndex` | highlight the fourth suggestion, type a query with two matches, press Enter: `filteredCities[3]` is `undefined` and line 155 throws | typing resets the index to -1 | not executed | CitiesDropDown.ShrinkThenEnterFaults | CitiesDropDown.CorrectedKeepsInRange |
| src/components/CitiesDropDown.jsx:144-148 | the arrow keys also set `hoverIndex`, and the effect copies `hoverIndex` into `selectedIndex` whenever they differ, so every later `setSelectedIndex(-1)` is undone | ArrowDown on a non-empty list, then Escape: the list closes but the index stays 0 | resetting the index also clears `hoverIndex` | not executed | CitiesDropDown.ArrowDownThenEscapeKeepsIndex | CitiesDropDown.DismissCloses |

In the corrected build all three are repaired at once:

- `ArrowUpIndex` returns -1 on an empty list.
- `Change` resets the cursor.
- `ResetCursor` clears the hovered index as well.

`CitiesDropDown.CorrectedRunNeverFaults` proves that no sequence of events makes the corrected dropdown throw.

=== FILE: app.dfy ===
/**
 The search rules of src/App.jsx: the "Buscar" button's validation of the typed text, the
 choice between a coordinate search and a name search when the dropdown selects a city,
 and the start-up search at the user's position or at the São Paulo fallback.

 The two searches themselves (`searchByCoordinates`, `searchCityByName`) are outside this
 model; a step here yields the request it would make.
 */
module App {
  import opened Options
  import opened JsText
  import opened Platform
  import opened Localities
  import CitiesDropDown

  const EmptyMessage := "Digite o nome de uma cidade"
  const ShortMessage := CitiesDropDown.ShortQueryMessage

  /** The search the page starts. */
  datatype Request = ByCoordinates(lat: Num, lon: Num) | ByName(name: string)

  /** What `handleSearch` does: the error it sets (`None` clears it) and the search, if any.
      `error == None && request == None` does not occur. */
  datatype Search = Search(error: Option<string>, request: Option<Request>)

  /** `handleSearch`: `input` is `inputRef.current?.value`, absent when there is no input. */
  function HandleSearch(input: Option<string>): (r: Search)
    ensures r.request.Some? <==> input.Some? && Length(Trim(input.value)) >= 3
    ensures r.request.Some? ==> r.error.None? && r.request.value == ByName(Trim(input.value))
    ensures r.request.None? ==> r.error.Some?
    ensures input.Some? && 0 < Length(Trim(input.value)) < 3 ==> r == Search(Some(ShortMessage), None)
    ensures r.error == Some(EmptyMessage) <==> input.None? || Trim(input.value) == []
  {
    var value := if input.Some? then Trim(input.value) else [];
    if value == [] then Search(Some(EmptyMessage), None)
    else if Length(value) < 3 then Search(Some(ShortMessage), None)
    else Search(None, Some(ByName(value)))
  }

  /** The button and the dropdown's Enter (with nothing highlighted) accept the same texts:
      three or more UTF-16 code units once trimmed. They differ only in the message for an empty
      text. */
  lemma ButtonAgreesWithDropdownValidation(text: string)
    ensures HandleSearch(Some(text)).request.Some? <==> CitiesDropDown.ValidateQuery(text).None?
    ensures Trim(text) != [] && CitiesDropDown.ValidateQuery(text).Some? ==>
      HandleSearch(Some(text)).error == CitiesDropDown.ValidateQuery(text)
    ensures Trim(text) == [] ==>
      HandleSearch(Some(text)).error != CitiesDropDown.ValidateQuery(text)
  {
  }

  /** The dropdown's `onSelect`: coordinates when both are truthy numbers, otherwise the
      label. A latitude or longitude of zero (or `NaN`) therefore searches by name. */
  function OnSelect(sel: CitiesDropDown.Selection): (r: Request)
    ensures r.ByCoordinates? <==>
      sel.coordinates.Some? && Truthy(sel.coordinates.value.lat) && Truthy(sel.coordinates.value.lon)
    ensures r.ByCoordinates? ==> r.lat == sel.coordinates.value.lat && r.lon == sel.coordinates.value.lon
    ensures r.ByName? ==> r.name == sel.name
  {
    match sel.coordinates
    case Some(c) => if Truthy(c.lat) && Truthy(c.lon) then ByCoordinates(c.lat, c.lon) else ByName(sel.name)
    case None => ByName(sel.name)
  }

  /** A city on the equator or the prime meridian is searched by its name. */
  lemma ZeroCoordinateSearchesByName(name: string, lat: Num, lon: Num)
    requires lat == Finite(0.0) || lon == Finite(0.0)
    ensures OnSelect(CitiesDropDown.Selection(name, Some(CitiesDropDown.Coordinates(lat, lon)))) == ByName(name)
  {
  }

  /** Enter on a typed text that the dropdown accepts starts the same search as the button. */
  lemma DropdownEnterMatchesButton(build: CitiesDropDown.Build, host: Host, cities: seq<Entry>, s: CitiesDropDown.Dropdown)
    requires CitiesDropDown.Labelled(cities)
    requires s.selected < 0
    ensures var o := CitiesDropDown.Step(build, host, cities, s, CitiesDropDown.Enter);
      && (o.emit.Select? <==> HandleSearch(Some(s.query)).request.Some?)
      && (o.emit.Select? ==> Some(OnSelect(o.emit.choice)) == HandleSearch(Some(s.query)).request)
  {
  }

  /** Enter on a highlighted city with coordinates searches at them, unless one is zero. */
  lemma DropdownCommitSearchesAtCity(build: CitiesDropDown.Build, host: Host, cities: seq<Entry>, s: CitiesDropDown.Dropdown)
    requires CitiesDropDown.Labelled(cities)
    requires 0 <= s.selected < |CitiesDropDown.Suggestions(host, s.query, cities)|
    ensures var c := CitiesDropDown.Suggestions(host, s.query, cities)[s.selected];
      var o := CitiesDropDown.Step(build, host, cities, s, CitiesDropDown.Enter);
      && o.emit.Select?
      && (c.lat.Some? && c.lon.Some? && Truthy(c.lat.value) && Truthy(c.lon.value) ==>
            OnSelect(o.emit.choice) == ByCoordinates(c.lat.value, c.lon.value))
      && (c.lat.None? || c.lon.None? ==> OnSelect(o.emit.choice) == ByName(Trim(NameText(c))))
  {
    CitiesDropDown.EnterCommitsHighlighted(build, host, cities, s);
  }

  /** What `navigator.geolocation` gives: no API, an error, or a position. */
  datatype Geolocation = Unsupported | Failed | Located(latitude: Num, longitude: Num)

  /** `fallbackSP`: the centre of São Paulo. */
  const FallbackLat := Finite(-23.533773)
  const FallbackLon := Finite(-46.625290)

  /** The start-up search: always by coordinates, at the position when there is one and at
      São Paulo otherwise. */
  function StartupRequest(geo: Geolocation): (r: Request)
    ensures r.ByCoordinates?
    ensures geo.Located? ==> r == ByCoordinates(geo.latitude, geo.longitude)
    ensures !geo.Located? ==> r == ByCoordinates(Finite(-23.533773), Finite(-46.625290))
  {
    match geo
    case Located(lat, lon) => ByCoordinates(lat, lon)
    case _ => ByCoordinates(FallbackLat, FallbackLon)
  }
}

=== FILE: cities_dropdown.dfy ===
/**
 The city autocomplete of src/components/CitiesDropDown.jsx: the suggestion filter, the
 visibility rule, and the selection state machine driven by typing, arrow keys, Escape,
 Enter, pointer hover and clicks, and closing on blur or a press elsewhere.

 React effects are folded into each step: after a handler runs, the visibility effect
 fires when the query changed, then the hover effect copies a hovered index into the
 selected index. The 120 ms close timers fire at the end of the step.

 The code has three defects. `Build` selects the code as written or the code with the
 three corrected:
 - ArrowUp on an empty list selects index 0;
 - typing does not reset the selected index, so it can point past a shrunken list;
 - every "reset to -1" leaves `hoverIndex` set, so the hover effect restores it.
 */
module CitiesDropDown {
  import opened Options
  import opened JsText
  import opened SeqOps
  import opened Platform
  import opened Localities

  const SuggestionLimit: nat := 50
  const ShortQueryMessage := "Digite pelo menos 3 caracteres"

  /** Combining diacritical marks, U+0300 to U+036F. */
  predicate IsCombiningMark(c: char)
  {
    '\U{0300}' <= c <= '\U{036F}'
  }

  /** The characters the accent strip keeps. */
  predicate Unmarked(c: char)
  {
    !IsCombiningMark(c)
  }

  /** `.replace(/[\u0300-\u036f]/g, '')`: every combining mark is removed, everything else
      stays in place. */
  function StripMarks(s: string): (r: string)
    ensures r == Filter(s, Unmarked)
  {
    if s == [] then []
    else (if IsCombiningMark(s[0]) then [] else [s[0]]) + StripMarks(s[1..])
  }

  /** The stripped text has no combining mark and keeps every other character of the
      text. */
  lemma StripMarksKeepsTheRest(s: string)
    ensures forall k :: 0 <= k < |StripMarks(s)| ==> !IsCombiningMark(StripMarks(s)[k])
    ensures forall i :: 0 <= i < |s| && !IsCombiningMark(s[i]) ==> s[i] in StripMarks(s)
  {
    FilterMembers(s, Unmarked);
  }

  /** The kept characters stay in order: the k-th character of the stripped text is the
      text's k-th unmarked one. */
  lemma StripMarksInOrder(s: string)
    ensures var p := Positions(s, Unmarked);
      && |StripMarks(s)| == |p|
      && forall k :: 0 <= k < |p| ==> StripMarks(s)[k] == s[p[k]]
  {
    FilterSelectsPositions(s, Unmarked);
  }

  /** Accent- and case-insensitive form: `normalize('NFD')`, marks removed, `toLowerCase()`. */
  function Fold(host: Host, s: string): string
  {
    host.lower(StripMarks(host.nfd(s)))
  }

  /** Every entry has a label (reading `label` of an entry without one throws). */
  predicate Labelled(cities: seq<Entry>)
  {
    forall k :: 0 <= k < |cities| ==> cities[k].name.Some?
  }

  /** The list the component loads (`fetchCities().then(parseCities)`) has a label on
      every entry. */
  lemma ParsedListIsLabelled(host: Host, raw: seq<RawCity>)
    ensures Labelled(ParseCities(host, raw))
  {
  }

  /** The `filter` callback for a folded query. */
  function MatchesQuery(host: Host, folded: string): Entry -> bool
  {
    (c: Entry) => Includes(Fold(host, NameText(c)), folded)
  }

  /** An entry whose folded label contains the folded, trimmed query. */
  ghost predicate Matches(host: Host, query: string, c: Entry)
  {
    Contains(Fold(host, NameText(c)), Fold(host, Trim(query)))
  }

  /** The `filteredCities` memo. */
  function Suggestions(host: Host, query: string, cities: seq<Entry>): (r: seq<Entry>)
    requires Labelled(cities)
    ensures Length(Trim(query)) < 2 ==> r == []
    ensures |r| <= SuggestionLimit
  {
    var q := Trim(query);
    if Length(q) < 2 then [] else Take(Filter(cities, MatchesQuery(host, Fold(host, q))), SuggestionLimit)
  }

  lemma MatchesQueryMeansMatches(host: Host, query: string, c: Entry)
    ensures MatchesQuery(host, Fold(host, Trim(query)))(c) <==> Matches(host, query, c)
  {
    IncludesIffContains(Fold(host, NameText(c)), Fold(host, Trim(query)));
  }

  /** Every suggestion is an entry of the list whose folded label contains the folded,
      trimmed query. */
  lemma SuggestionsMatch(host: Host, query: string, cities: seq<Entry>, k: int)
    requires Labelled(cities)
    requires 0 <= k < |Suggestions(host, query, cities)|
    ensures Suggestions(host, query, cities)[k] in cities
    ensures Matches(host, query, Suggestions(host, query, cities)[k])
  {
    var q := Trim(query);
    var keep := MatchesQuery(host, Fold(host, q));
    var all := Filter(cities, keep);
    FilterMembers(cities, keep);
    var r := Suggestions(host, query, cities);
    assert r == Take(all, SuggestionLimit);
    assert r[k] == all[k];
    assert all[k] in cities && keep(all[k]);
    MatchesQueryMeansMatches(host, query, r[k]);
  }

  /** Below the cap nothing is lost: every matching entry is suggested. */
  lemma SuggestionsComplete(host: Host, query: string, cities: seq<Entry>, i: int)
    requires Labelled(cities)
    requires Length(Trim(query)) >= 2 && |Suggestions(host, query, cities)| < SuggestionLimit
    requires 0 <= i < |cities| && Matches(host, query, cities[i])
    ensures cities[i] in Suggestions(host, query, cities)
  {
    FilterMembers(cities, MatchesQuery(host, Fold(host, Trim(query))));
    MatchesQueryMeansMatches(host, query, cities[i]);
  }

  /** The k-th suggestion is the k-th matching entry of the list: suggestions are the
      first fifty matches, in list order. */
  lemma SuggestionsAreFirstMatches(host: Host, query: string, cities: seq<Entry>)
    requires Labelled(cities)
    requires Length(Trim(query)) >= 2
    ensures var p := Positions(cities, MatchesQuery(host, Fold(host, Trim(query))));
      && |Suggestions(host, query, cities)| == (if |p| < SuggestionLimit then |p| else SuggestionLimit)
      && forall k :: 0 <= k < |Suggestions(host, query, cities)| ==>
           Suggestions(host, query, cities)[k] == cities[p[k]]
  {
    FilterSelectsPositions(cities, MatchesQuery(host, Fold(host, Trim(query))));
  }

  /** The visibility effect: `query.length >= 2 && filteredCities.length > 0`. */
  function ShouldShow(host: Host, query: string, cities: seq<Entry>): bool
    requires Labelled(cities)
  {
    Length(query) >= 2 && |Suggestions(host, query, cities)| > 0
  }

  /** The untrimmed length test is implied by a non-empty list: the list shows exactly
      when there is something to show. */
  lemma ShownIffSuggestions(host: Host, query: string, cities: seq<Entry>)
    requires Labelled(cities)
    ensures ShouldShow(host, query, cities) <==> |Suggestions(host, query, cities)| > 0
  {
    TrimLength(query);
  }

  /** `validateQuery`: the message for a trimmed text shorter than three UTF-16 code units. */
  function ValidateQuery(text: string): (r: Option<string>)
    ensures r.None? <==> Length(Trim(text)) >= 3
    ensures r.Some? ==> r.value == ShortQueryMessage
  {
    if Length(Trim(text)) < 3 then Some(ShortQueryMessage) else None
  }

  /** Lengths are counted as `String.prototype.length` counts them: a letter followed by an
      emoji is two code points but three code units, so it passes the three-unit test. */
  lemma AstralCharacterCountsTwice()
    ensures |"a\U{1F600}"| == 2 && Length("a\U{1F600}") == 3
    ensures ValidateQuery("a\U{1F600}").None?
  {
    assert Trim("a\U{1F600}") == "a\U{1F600}";
  }

  datatype Dropdown = Dropdown(query: string, shown: bool, selected: int, hover: int)

  const Initial := Dropdown("", false, -1, -1)

  datatype Coordinates = Coordinates(lat: Num, lon: Num)

  /** The object given to `onSelect`: `{label, lat, lon}` or `{label}` (`name` is `label`). */
  datatype Selection = Selection(name: string, coordinates: Option<Coordinates>)

  /** What a step reports to the page: nothing, `onSelect`, `onError`, or a thrown
      `TypeError` from reading past the end of the list. */
  datatype Emit = Quiet | Select(choice: Selection) | Reject(message: string) | Fault

  datatype Event =
    | Change(text: string)
    | Focus
    | Blur(focusInList: bool)
    | PressOutside(outside: bool)
    | ArrowDown
    | ArrowUp
    | Escape
    | Enter
    | OtherKey
    | HoverItem(index: int)
    | LeaveItem
    | ClickItem(index: int)

  datatype Build = AsWritten | Corrected

  /** The 120 ms timers: close, or reset the index and close. */
  datatype Timer = NoTimer | CloseTimer | ResetCloseTimer

  datatype Handled = Handled(next: Dropdown, emit: Emit, timer: Timer)

  datatype Outcome = Outcome(state: Dropdown, emit: Emit)

  /** The hover effect has nothing left to copy. */
  predicate Settled(s: Dropdown)
  {
    s.hover == -1 || s.hover == s.selected
  }

  /** Indices are never below -1 (the code keeps this, and nothing more). */
  predicate Wellformed(s: Dropdown)
  {
    s.selected >= -1 && s.hover >= -1 && Settled(s)
  }

  /** `setSelectedIndex(-1)`; the corrected build also forgets the hovered item. */
  function ResetCursor(build: Build, s: Dropdown): (r: Dropdown)
    ensures r.selected == -1 && r.query == s.query && r.shown == s.shown
    ensures build == Corrected ==> r.hover == -1
    ensures build == AsWritten ==> r.hover == s.hover
  {
    match build
    case AsWritten => s.(selected := -1)
    case Corrected => s.(selected := -1, hover := -1)
  }

  /** Escape, a press outside, a blur away from the list. */
  function Dismiss(build: Build, s: Dropdown): Dropdown
  {
    ResetCursor(build, s.(shown := false))
  }

  /** `Math.min(selectedIndex + 1, filteredCities.length - 1)`. */
  function ArrowDownIndex(i: int, n: nat): (j: int)
    ensures j <= n - 1
    ensures -1 <= i < n ==> -1 <= j && (n > 0 ==> 0 <= j)
    ensures i < n - 1 ==> j == i + 1
    ensures n - 1 <= i ==> j == n - 1
  {
    if i + 1 < n - 1 then i + 1 else n - 1
  }

  /** `Math.max(selectedIndex - 1, 0)`; the corrected build stays at -1 on an empty list. */
  function ArrowUpIndex(build: Build, i: int, n: nat): (j: int)
    ensures build == AsWritten ==> 0 <= j && (i >= 1 ==> j == i - 1) && (i <= 1 ==> j == 0)
    ensures build == Corrected && -1 <= i < n ==> -1 <= j < n && (n > 0 ==> 0 <= j)
    ensures build == Corrected && n > 0 && i >= 1 ==> j == i - 1
  {
    var j := if i - 1 > 0 then i - 1 else 0;
    match build
    case AsWritten => j
    case Corrected => if n == 0 then -1 else j
  }

  /** The selection for a candidate: its trimmed label, with coordinates only when both
      are numbers (`typeof ... === 'number'`; `null` is not). */
  function Commit(c: Entry): (sel: Selection)
    ensures sel.name == Trim(NameText(c))
    ensures sel.coordinates.Some? <==> c.lat.Some? && c.lon.Some?
    ensures sel.coordinates.Some? ==> sel.coordinates.value == Coordinates(c.lat.value, c.lon.value)
  {
    Selection(Trim(NameText(c)), if c.lat.Some? && c.lon.Some? then Some(Coordinates(c.lat.value, c.lon.value)) else None)
  }

  /** The list is on screen. */
  predicate Rendered(host: Host, cities: seq<Entry>, s: Dropdown)
    requires Labelled(cities)
  {
    s.shown && |Suggestions(host, s.query, cities)| > 0
  }

  /** Pointer events on items only reach items that are on screen. */
  predicate Deliverable(host: Host, cities: seq<Entry>, s: Dropdown, ev: Event)
    requires Labelled(cities)
  {
    match ev
    case HoverItem(k) => Rendered(host, cities, s) && 0 <= k < |Suggestions(host, s.query, cities)|
    case ClickItem(k) => Rendered(host, cities, s) && 0 <= k < |Suggestions(host, s.query, cities)|
    case LeaveItem => Rendered(host, cities, s)
    case _ => true
  }

  /** `handleEnter`: it always emits. It faults exactly when the index points past the
      list, and rejects exactly a short text with nothing highlighted. Only a selection
      changes the state and starts the close timer. */
  function OnEnter(build: Build, host: Host, cities: seq<Entry>, s: Dropdown): (h: Handled)
    requires Labelled(cities)
    ensures h.emit != Quiet
    ensures h.emit == Fault <==> s.selected >= |Suggestions(host, s.query, cities)|
    ensures h.emit.Reject? <==> s.selected < 0 && Length(Trim(s.query)) < 3
    ensures h.emit.Reject? ==> h.emit.message == ShortQueryMessage
    ensures h.emit.Select? ==> h.next.selected == -1 && h.timer == CloseTimer
    ensures !h.emit.Select? ==> h.next == s && h.timer == NoTimer
  {
    var list := Suggestions(host, s.query, cities);
    if s.selected >= 0 then
      if s.selected < |list| then
        var sel := Commit(list[s.selected]);
        Handled(ResetCursor(build, s.(query := sel.name)), Select(sel), CloseTimer)
      else
        Handled(s, Fault, NoTimer)
    else
      match ValidateQuery(s.query)
      case Some(message) => Handled(s, Reject(message), NoTimer)
      case None => Handled(ResetCursor(build, s), Select(Selection(Trim(s.query), None)), CloseTimer)
  }

  /** The event handlers of the input and of the list items. Only Enter and a click emit
      or start a timer, a click always selects, and only typing or a selection changes
      the query. */
  function Handle(build: Build, host: Host, cities: seq<Entry>, s: Dropdown, ev: Event): (h: Handled)
    requires Labelled(cities)
    requires Deliverable(host, cities, s, ev)
    ensures ev != Enter && !ev.ClickItem? ==> h.emit == Quiet && h.timer == NoTimer
    ensures ev.ClickItem? ==> h.emit.Select? && h.timer == ResetCloseTimer
    ensures h.next.query != s.query ==> ev.Change? || h.emit.Select?
  {
    var list := Suggestions(host, s.query, cities);
    match ev
    case Change(text) =>
      var typed := s.(query := text, shown := s.shown || Length(Trim(text)) >= 2);
      Handled(if build == Corrected then ResetCursor(build, typed) else typed, Quiet, NoTimer)
    case Focus =>
      var focused := s.(shown := s.shown || (Length(Trim(s.query)) >= 2 && |list| > 0));
      Handled(ResetCursor(build, focused), Quiet, NoTimer)
    case Blur(focusInList) =>
      Handled(if focusInList then s else Dismiss(build, s), Quiet, NoTimer)
    case PressOutside(outside) =>
      Handled(if outside then Dismiss(build, s) else s, Quiet, NoTimer)
    case ArrowDown =>
      var j := ArrowDownIndex(s.selected, |list|);
      Handled(s.(selected := j, hover := j), Quiet, NoTimer)
    case ArrowUp =>
      var j := ArrowUpIndex(build, s.selected, |list|);
      Handled(s.(selected := j, hover := j), Quiet, NoTimer)
    case Escape =>
      Handled(Dismiss(build, s), Quiet, NoTimer)
    case Enter =>
      OnEnter(build, host, cities, s)
    case OtherKey =>
      Handled(s, Quiet, NoTimer)
    case HoverItem(k) =>
      Handled(s.(hover := k, selected := k), Quiet, NoTimer)
    case LeaveItem =>
      Handled(s.(hover := -1), Quiet, NoTimer)
    case ClickItem(k) =>
      var sel := Commit(list[k]);
      Handled(s.(query := sel.name), Select(sel), ResetCloseTimer)
  }

  /** The hover effect: a hovered index different from the selected one becomes selected. */
  function Sync(s: Dropdown): (r: Dropdown)
    ensures Settled(r)
    ensures r.query == s.query && r.shown == s.shown && r.hover == s.hover
    ensures Settled(s) ==> r == s
  {
    if s.hover != -1 && s.hover != s.selected then s.(selected := s.hover) else s
  }

  /** The effects after a handler moved the state from `prev` to `next`. */
  function Settle(host: Host, cities: seq<Entry>, prev: Dropdown, next: Dropdown): (r: Dropdown)
    requires Labelled(cities)
    ensures Settled(r)
    ensures r.query == next.query && r.hover == next.hover
    ensures r.selected == if next.hover != -1 then next.hover else next.selected
    ensures next.query != prev.query ==> (r.shown <==> |Suggestions(host, next.query, cities)| > 0)
    ensures next.query == prev.query ==> r.shown == next.shown
  {
    ShownIffSuggestions(host, next.query, cities);
    var shown := if next.query != prev.query then ShouldShow(host, next.query, cities) else next.shown;
    Sync(next.(shown := shown))
  }

  /** One event: handler, effects, then the handler's timer. The hover effect has nothing
      left to do afterwards, every selection closes the list, only Enter and a click emit,
      and a rejected or failing Enter changes nothing the hover effect would not. */
  function Step(build: Build, host: Host, cities: seq<Entry>, s: Dropdown, ev: Event): (o: Outcome)
    requires Labelled(cities)
    requires Deliverable(host, cities, s, ev)
    ensures Settled(o.state)
    ensures o.emit.Select? ==> !o.state.shown
    ensures ev != Enter && !ev.ClickItem? ==> o.emit == Quiet
    ensures o.emit.Reject? || o.emit == Fault ==> o.state == Sync(s)
  {
    var h := Handle(build, host, cities, s, ev);
    var settled := Settle(host, cities, s, h.next);
    var after :=
      match h.timer
      case NoTimer => settled
      case CloseTimer => settled.(shown := false)
      case ResetCloseTimer => Sync(ResetCursor(build, settled).(shown := false));
    Outcome(after, h.emit)
  }

  /** Both builds keep indices at -1 or above and leave nothing for the hover effect. */
  lemma StepKeepsWellformed(build: Build, host: Host, cities: seq<Entry>, s: Dropdown, ev: Event)
    requires Labelled(cities)
    requires Deliverable(host, cities, s, ev)
    requires Wellformed(s)
    ensures Wellformed(Step(build, host, cities, s, ev).state)
  {
  }

  /** The arrow keys move both indices to the value of the index functions for the current
      list, and nothing else changes. */
  lemma ArrowKeysMoveCursor(build: Build, host: Host, cities: seq<Entry>, s: Dropdown)
    requires Labelled(cities)
    ensures var n := |Suggestions(host, s.query, cities)|;
      var down := ArrowDownIndex(s.selected, n);
      var up := ArrowUpIndex(build, s.selected, n);
      && Step(build, host, cities, s, ArrowDown) == Outcome(s.(selected := down, hover := down), Quiet)
      && Step(build, host, cities, s, ArrowUp) == Outcome(s.(selected := up, hover := up), Quiet)
  {
  }

  /** Hovering a rendered item selects it and marks it hovered, and nothing else changes. */
  lemma HoverSelects(build: Build, host: Host, cities: seq<Entry>, s: Dropdown, k: int)
    requires Labelled(cities)
    requires Deliverable(host, cities, s, HoverItem(k))
    ensures Step(build, host, cities, s, HoverItem(k)) == Outcome(s.(selected := k, hover := k), Quiet)
  {
  }

  /** Escape, a press outside both the list and the input, and a blur that does not move
      focus into the list close the list and emit nothing; the index is -1 afterwards
      unless the as-written code still has a hovered item. */
  lemma DismissCloses(build: Build, host: Host, cities: seq<Entry>, s: Dropdown, ev: Event)
    requires Labelled(cities)
    requires ev == Escape || ev == PressOutside(true) || ev == Blur(false)
    ensures var o := Step(build, host, cities, s, ev);
      && !o.state.shown && o.emit == Quiet && o.state.query == s.query
      && (build == Corrected || s.hover == -1 ==> o.state.selected == -1)
      && (build == AsWritten && s.hover != -1 ==> o.state.selected == s.hover)
  {
  }

  /** Defect: after ArrowDown highlights an item, Escape closes the list but the hover
      effect re-selects that item, so the index is not -1. */
  lemma ArrowDownThenEscapeKeepsIndex(host: Host, cities: seq<Entry>, s: Dropdown)
    requires Labelled(cities)
    requires Wellformed(s)
    requires |Suggestions(host, s.query, cities)| > 0
    ensures var down := Step(AsWritten, host, cities, s, ArrowDown).state;
      && down.selected >= 0
      && Step(AsWritten, host, cities, down, Escape).state.selected == down.selected
  {
  }

  /** Enter with a highlighted candidate commits its trimmed label, puts that label (which
      trimming leaves as it is) in the input and closes the list. The index is reset to -1, except that the as-written hover
      effect re-selects a still-hovered item. */
  lemma EnterCommitsHighlighted(build: Build, host: Host, cities: seq<Entry>, s: Dropdown)
    requires Labelled(cities)
    requires 0 <= s.selected < |Suggestions(host, s.query, cities)|
    ensures var c := Suggestions(host, s.query, cities)[s.selected];
      var o := Step(build, host, cities, s, Enter);
      && o.emit == Select(Commit(c))
      && o.state.query == Trim(NameText(c))
      && !o.state.shown
      && (build == Corrected || s.hover == -1 ==> o.state.selected == -1)
      && (build == AsWritten && s.hover != -1 ==> o.state.selected == s.hover)
      && (build == Corrected ==> o.state.hover == -1)
      && Trim(o.state.query) == o.state.query
  {
    TrimIdempotent(NameText(Suggestions(host, s.query, cities)[s.selected]));
  }

  /** A click on a rendered item commits that item's trimmed label, puts it in the input and,
      through the reset timer, closes the list with the same index rule as Enter. */
  lemma ClickCommits(build: Build, host: Host, cities: seq<Entry>, s: Dropdown, k: int)
    requires Labelled(cities)
    requires Deliverable(host, cities, s, ClickItem(k))
    ensures var c := Suggestions(host, s.query, cities)[k];
      var o := Step(build, host, cities, s, ClickItem(k));
      && o.emit == Select(Commit(c))
      && o.state.query == Trim(NameText(c))
      && !o.state.shown
      && (build == Corrected || s.hover == -1 ==> o.state.selected == -1)
      && (build == AsWritten && s.hover != -1 ==> o.state.selected == s.hover)
      && (build == Corrected ==> o.state.hover == -1)
      && Trim(o.state.query) == o.state.query
  {
    TrimIdempotent(NameText(Suggestions(host, s.query, cities)[k]));
  }

  /** Enter with nothing highlighted and a trimmed query under three UTF-16 code units reports
      the message and changes nothing. */
  lemma EnterRejectsShortText(build: Build, host: Host, cities: seq<Entry>, s: Dropdown)
    requires Labelled(cities)
    requires Wellformed(s) && s.selected < 0
    requires Length(Trim(s.query)) < 3
    ensures Step(build, host, cities, s, Enter) == Outcome(s, Reject(ShortQueryMessage))
  {
  }

  /** Enter with nothing highlighted and a trimmed query of three or more code units
      submits the trimmed text without coordinates and closes the list. */
  lemma EnterSubmitsText(build: Build, host: Host, cities: seq<Entry>, s: Dropdown)
    requires Labelled(cities)
    requires Wellformed(s) && s.selected < 0
    requires Length(Trim(s.query)) >= 3
    ensures var o := Step(build, host, cities, s, Enter);
      && o.emit == Select(Selection(Trim(s.query), None))
      && o.state == s.(shown := false, selected := -1)
  {
  }

  /** Defect: ArrowUp on an empty list selects 0 (from -1, 0 or 1), and Enter then reads
      past the end. */
  lemma ArrowUpOnEmptyListFaults(host: Host, cities: seq<Entry>, s: Dropdown)
    requires Labelled(cities)
    requires s.selected <= 1
    requires |Suggestions(host, s.query, cities)| == 0
    ensures var up := Step(AsWritten, host, cities, s, ArrowUp).state;
      && up.selected == 0
      && Step(AsWritten, host, cities, up, Enter).emit == Fault
  {
  }

  /** Defect: typing keeps the selected index, so after the list shrinks below it Enter
      reads past the end. */
  lemma ShrinkThenEnterFaults(host: Host, cities: seq<Entry>, s: Dropdown, text: string)
    requires Labelled(cities)
    requires Wellformed(s) && s.selected >= 0
    requires |Suggestions(host, text, cities)| <= s.selected
    ensures var typed := Step(AsWritten, host, cities, s, Change(text)).state;
      && typed.selected == s.selected
      && Step(AsWritten, host, cities, typed, Enter).emit == Fault
  {
  }

  /** The corrected build's invariant: both indices name an item of the current list or
      are -1. */
  predicate InRange(host: Host, cities: seq<Entry>, s: Dropdown)
    requires Labelled(cities)
  {
    var n := |Suggestions(host, s.query, cities)|;
    -1 <= s.selected < n && -1 <= s.hover < n && Settled(s)
  }

  lemma CorrectedKeepsInRange(host: Host, cities: seq<Entry>, s: Dropdown, ev: Event)
    requires Labelled(cities)
    requires Deliverable(host, cities, s, ev)
    requires InRange(host, cities, s)
    ensures InRange(host, cities, Step(Corrected, host, cities, s, ev).state)
  {
  }

  /** In the corrected build Enter never reads past the end of the list. */
  lemma CorrectedEnterNeverFaults(host: Host, cities: seq<Entry>, s: Dropdown)
    requires Labelled(cities)
    requires InRange(host, cities, s)
    ensures Step(Corrected, host, cities, s, Enter).emit != Fault
  {
  }

  /** The page's view of a session: the final state and everything emitted. Pointer
      events for items that are not on screen never arrive, so they are skipped. */
  function Run(build: Build, host: Host, cities: seq<Entry>, s: Dropdown, events: seq<Event>): (Dropdown, seq<Emit>)
    requires Labelled(cities)
    decreases |events|
  {
    if events == [] then (s, [])
    else if !Deliverable(host, cities, s, events[0]) then Run(build, host, cities, s, events[1..])
    else
      var o := Step(build, host, cities, s, events[0]);
      var rest := Run(build, host, cities, o.state, events[1..]);
      (rest.0, [o.emit] + rest.1)
  }

  /** Whatever the user does, the corrected dropdown never throws. */
  lemma {:induction false} CorrectedRunNeverFaults(host: Host, cities: seq<Entry>, s: Dropdown, events: seq<Event>)
    requires Labelled(cities)
    requires InRange(host, cities, s)
    ensures Fault !in Run(Corrected, host, cities, s, events).1
    ensures InRange(host, cities, Run(Corrected, host, cities, s, events).0)
    decreases |events|
  {
    if events != [] {
      if Deliverable(host, cities, s, events[0]) {
        var o := Step(Corrected, host, cities, s, events[0]);
        CorrectedKeepsInRange(host, cities, s, events[0]);
        if events[0] == Enter {
          CorrectedEnterNeverFaults(host, cities, s);
        }
        assert o.emit != Fault;
        CorrectedRunNeverFaults(host, cities, o.state, events[1..]);
      } else {
        CorrectedRunNeverFaults(host, cities, s, events[1..]);
      }
    }
  }

  /** A freshly mounted dropdown throws on ArrowUp then Enter, whatever the city list. */
  lemma FreshArrowUpEnterFaults(host: Host, cities: seq<Entry>)
    requires Labelled(cities)
    ensures Fault in Run(AsWritten, host, cities, Initial, [ArrowUp, Enter]).1
  {
    assert Trim("") == "";
    var up := Step(AsWritten, host, cities, Initial, ArrowUp);
    ArrowUpOnEmptyListFaults(host, cities, Initial);
    assert [ArrowUp, Enter][1..] == [Enter];
    assert [Enter][1..] == [];
  }
}

=== FILE: city_autocomplete.dfy ===
/**
 The alternative autocomplete of src/components/CityAutocomplete.jsx: an untrimmed,
 case-insensitive substring filter capped at one hundred places, the visibility rule, and
 Enter handing the raw text to the search.
 */
module CityAutocomplete {
  import opened Options
  import opened JsText
  import opened SeqOps
  import opened Platform

  const ResultLimit: nat := 100

  /** An entry of the city file: `{name, state, country, ...}`. */
  datatype Place = Place(name: string, state: string, country: string)

  /** The `filter` callback for a lower-cased query. */
  function NameIncludes(host: Host, term: string): Place -> bool
  {
    (p: Place) => Includes(host.lower(p.name), term)
  }

  /** A place whose lower-cased name contains the lower-cased query, as typed. */
  ghost predicate Matches(host: Host, query: string, p: Place)
  {
    Contains(host.lower(p.name), host.lower(query))
  }

  /** The `filteredCities` memo. */
  function Results(host: Host, query: string, places: seq<Place>): (r: seq<Place>)
    ensures Length(query) < 2 ==> r == []
    ensures |r| <= ResultLimit
  {
    if Length(query) < 2 then [] else Take(Filter(places, NameIncludes(host, host.lower(query))), ResultLimit)
  }

  lemma NameIncludesMeansMatches(host: Host, query: string, p: Place)
    ensures NameIncludes(host, host.lower(query))(p) <==> Matches(host, query, p)
  {
    IncludesIffContains(host.lower(p.name), host.lower(query));
  }

  /** Every result is a place of the list whose lower-cased name contains the lower-cased
      query; nothing is trimmed first. */
  lemma ResultsMatch(host: Host, query: string, places: seq<Place>, k: int)
    requires 0 <= k < |Results(host, query, places)|
    ensures Results(host, query, places)[k] in places
    ensures Matches(host, query, Results(host, query, places)[k])
  {
    var keep := NameIncludes(host, host.lower(query));
    var all := Filter(places, keep);
    FilterMembers(places, keep);
    var r := Results(host, query, places);
    assert r[k] == all[k];
    NameIncludesMeansMatches(host, query, r[k]);
  }

  /** Below the cap every matching place is a result. */
  lemma ResultsComplete(host: Host, query: string, places: seq<Place>, i: int)
    requires Length(query) >= 2 && |Results(host, query, places)| < ResultLimit
    requires 0 <= i < |places| && Matches(host, query, places[i])
    ensures places[i] in Results(host, query, places)
  {
    FilterMembers(places, NameIncludes(host, host.lower(query)));
    NameIncludesMeansMatches(host, query, places[i]);
  }

  /** The k-th result is the k-th matching place: the results are the first hundred
      matches, in list order. */
  lemma ResultsAreFirstMatches(host: Host, query: string, places: seq<Place>)
    requires Length(query) >= 2
    ensures var p := Positions(places, NameIncludes(host, host.lower(query)));
      && |Results(host, query, places)| == (if |p| < ResultLimit then |p| else ResultLimit)
      && forall k :: 0 <= k < |Results(host, query, places)| ==>
           Results(host, query, places)[k] == places[p[k]]
  {
    FilterSelectsPositions(places, NameIncludes(host, host.lower(query)));
  }

  /** The visibility effect: `filteredCities.length > 0 && query.length >= 2`. */
  function ShouldShow(host: Host, query: string, places: seq<Place>): bool
  {
    |Results(host, query, places)| > 0 && Length(query) >= 2
  }

  /** A whitespace-only query of two characters still filters: the length test is on the
      untrimmed text, so "  " keeps every place whose lower-cased name contains two spaces. */
  lemma BlankQueryStillFilters(host: Host, places: seq<Place>, i: int)
    requires 0 <= i < |places| && Matches(host, "  ", places[i])
    ensures ShouldShow(host, "  ", places)
  {
    FilterMembers(places, NameIncludes(host, host.lower("  ")));
    NameIncludesMeansMatches(host, "  ", places[i]);
  }

  datatype Auto = Auto(query: string, shown: bool)

  const Initial := Auto("", false)

  datatype Event = Change(text: string) | KeyDown(key: string) | Focus

  /** One event: the input's handlers, then the visibility effect when the query changed.
      The second component is the text given to `onSearch`, if any. Only Enter searches,
      and it changes nothing; only typing changes the query or hides the list. */
  function Step(host: Host, places: seq<Place>, s: Auto, ev: Event): (r: (Auto, Option<string>))
    ensures r.1.Some? <==> ev == KeyDown("Enter")
    ensures r.1.Some? ==> r.1.value == s.query && r.0 == s
    ensures !ev.Change? ==> r.0.query == s.query
    ensures s.shown && !ev.Change? ==> r.0.shown
    ensures ev.Change? && ev.text == s.query ==> r.0 == s
  {
    match ev
    case Change(text) =>
      var shown := if text != s.query then ShouldShow(host, text, places) else s.shown;
      (Auto(text, shown), None)
    case KeyDown(key) =>
      (s, if key == "Enter" then Some(s.query) else None)
    case Focus =>
      (s.(shown := s.shown || Length(s.query) >= 2), None)
  }

  /** Enter searches for the text exactly as typed: no trimming, no length check, and the
      list stays as it is; every other key does nothing. */
  lemma EnterSearchesRawText(host: Host, places: seq<Place>, s: Auto, key: string)
    ensures var o := Step(host, places, s, KeyDown(key));
      && o.0 == s
      && (o.1.Some? <==> key == "Enter")
      && (o.1.Some? ==> o.1.value == s.query)
  {
  }

  /** After typing a new text the list shows exactly when it has results. */
  lemma ChangeShowsIffResults(host: Host, places: seq<Place>, s: Auto, text: string)
    requires text != s.query
    ensures var o := Step(host, places, s, Change(text));
      o.0.shown <==> |Results(host, text, places)| > 0
  {
  }

  /** The list is only ever shown for a query of two or more code units. */
  lemma StepKeepsShortQueryHidden(host: Host, places: seq<Place>, s: Auto, ev: Event)
    requires s.shown ==> Length(s.query) >= 2
    ensures var o := Step(host, places, s, ev).0;
      o.shown ==> Length(o.query) >= 2
  {
  }

  /** A focus shows the list for any query of two or more code units, even when nothing
      matches: the focus handler does not look at the results. */
  lemma FocusCanShowEmptyList(host: Host)
    ensures Results(host, "zz", []) == []
    ensures Step(host, [], Auto("zz", false), Focus).0.shown
  {
  }

  /** Enter on a fresh component searches for the empty text. */
  lemma EnterOnInitialSearchesEmptyText(host: Host, places: seq<Place>)
    ensures Step(host, places, Initial, KeyDown("Enter")) == (Initial, Some(""))
  {
  }
}

=== FILE: daily_forecast.dfy ===
/**
 The five-day strip of src/components/WeatherInformations5Days.jsx: the 3-hourly forecast
 list is grouped by calendar day, keeping the first forecast of each day in the order the
 days first appear, and the second to sixth days are shown.

 The calendar day of a timestamp (`new Date(dt * 1000).toLocaleDateString()`) is a
 parameter `day`, so the properties hold for any locale and time zone.
 */
module DailyForecast {
  import opened SeqOps

  /** One entry of `weather5Days.list`: its Unix time and everything else it carries. */
  datatype Forecast<P> = Forecast(dt: int, detail: P)

  /** The day keys of a list of forecasts. */
  function Days<P>(day: int -> string, s: seq<Forecast<P>>): set<string>
  {
    set k | 0 <= k < |s| :: day(s[k].dt)
  }

  /** No two forecasts share a day. */
  ghost predicate DistinctDays<P>(day: int -> string, s: seq<Forecast<P>>)
  {
    forall k, l :: 0 <= k < l < |s| ==> day(s[k].dt) != day(s[l].dt)
  }

  /** `s[i]` is the first forecast of its day. */
  predicate FirstOfDay<P>(day: int -> string, s: seq<Forecast<P>>, i: int)
  {
    0 <= i < |s| && forall j :: 0 <= j < i ==> day(s[j].dt) != day(s[i].dt)
  }

  lemma DaysSnoc<P>(day: int -> string, s: seq<Forecast<P>>, f: Forecast<P>)
    ensures Days(day, s + [f]) == Days(day, s) + {day(f.dt)}
  {
    var t := s + [f];
    forall d | d in Days(day, t) ensures d in Days(day, s) + {day(f.dt)} {
      var k :| 0 <= k < |t| && day(t[k].dt) == d;
      if k < |s| {
        assert t[k] == s[k];
      }
    }
    forall d | d in Days(day, s) ensures d in Days(day, t) {
      var k :| 0 <= k < |s| && day(s[k].dt) == d;
      assert t[k] == s[k];
    }
    assert t[|s|] == f;
  }

  /** `Object.values(dailyForecast)`: the first forecast of each day, in order of first
      appearance. Every day of the list is kept exactly once. */
  function FirstPerDay<P>(day: int -> string, s: seq<Forecast<P>>): (r: seq<Forecast<P>>)
    ensures |r| <= |s|
    ensures DistinctDays(day, r)
    ensures Days(day, r) == Days(day, s)
    decreases |s|
  {
    if s == [] then []
    else
      var init := s[..|s| - 1];
      var last := s[|s| - 1];
      var r := FirstPerDay(day, init);
      assert s == init + [last];
      DaysSnoc(day, init, last);
      if day(last.dt) in Days(day, r) then r
      else
        DaysSnoc(day, r, last);
        r + [last]
  }

  /** The positions of the first forecast of each day, increasing. */
  function FirstIndices<P>(day: int -> string, s: seq<Forecast<P>>): (p: seq<int>)
    ensures forall k :: 0 <= k < |p| ==> FirstOfDay(day, s, p[k])
    ensures forall k, l :: 0 <= k < l < |p| ==> p[k] < p[l]
    ensures forall i :: FirstOfDay(day, s, i) ==> i in p
    decreases |s|
  {
    if s == [] then []
    else
      var init := s[..|s| - 1];
      var p := FirstIndices(day, init);
      assert forall i :: 0 <= i < |init| ==> init[i] == s[i];
      if FirstOfDay(day, s, |s| - 1) then p + [|s| - 1] else p
  }

  lemma FirstOfDayNotSeen<P>(day: int -> string, s: seq<Forecast<P>>)
    requires s != []
    ensures FirstOfDay(day, s, |s| - 1) <==> day(s[|s| - 1].dt) !in Days(day, s[..|s| - 1])
  {
    var init := s[..|s| - 1];
    if !FirstOfDay(day, s, |s| - 1) {
      var j :| 0 <= j < |s| - 1 && day(s[j].dt) == day(s[|s| - 1].dt);
      assert init[j] == s[j];
    }
  }

  /** The kept forecasts are exactly the forecasts at the first positions of their days:
      each is the first of its day, and the days come in order of first appearance. */
  lemma {:induction false} FirstPerDayAtFirstIndices<P>(day: int -> string, s: seq<Forecast<P>>)
    ensures |FirstPerDay(day, s)| == |FirstIndices(day, s)|
    ensures forall k :: 0 <= k < |FirstPerDay(day, s)| ==>
      FirstPerDay(day, s)[k] == s[FirstIndices(day, s)[k]]
    decreases |s|
  {
    if s != [] {
      var init := s[..|s| - 1];
      FirstPerDayAtFirstIndices(day, init);
      FirstOfDayNotSeen(day, s);
      var r := FirstPerDay(day, init);
      var p := FirstIndices(day, init);
      assert Days(day, r) == Days(day, init);
      forall k | 0 <= k < |p| ensures r[k] == s[p[k]] {
        assert init[p[k]] == s[p[k]];
      }
    }
  }

  /** The loop that fills `dailyForecast` and the `Object.values` read-out, with the object's
      keys in insertion order (a date string is never an array index). */
  method GroupByDay<P>(day: int -> string, list: seq<Forecast<P>>) returns (values: seq<Forecast<P>>)
    ensures values == FirstPerDay(day, list)
  {
    var daily: map<string, Forecast<P>> := map[];
    var keys: seq<string> := [];
    var i := 0;
    while i < |list|
      invariant 0 <= i <= |list|
      invariant |keys| == |FirstPerDay(day, list[..i])|
      invariant forall k :: 0 <= k < |keys| ==> keys[k] == day(FirstPerDay(day, list[..i])[k].dt)
      invariant forall k :: 0 <= k < |keys| ==> keys[k] in daily && daily[keys[k]] == FirstPerDay(day, list[..i])[k]
      invariant daily.Keys == Days(day, list[..i])
    {
      var f := list[i];
      var date := day(f.dt);
      assert list[..i + 1][..i] == list[..i];
      assert list[..i + 1][i] == f;
      DaysSnoc(day, list[..i], f);
      if date !in daily {
        daily := daily[date := f];
        keys := keys + [date];
      }
      i := i + 1;
    }
    assert list[..i] == list;
    values := seq(|keys|, k requires 0 <= k < |keys| => daily[keys[k]]);
  }

  /** `Object.values(dailyForecast).slice(1, 6)`. */
  function NextFiveDays<P>(day: int -> string, list: seq<Forecast<P>>): (r: seq<Forecast<P>>)
    ensures |r| <= 5
    ensures var days := FirstPerDay(day, list);
      forall k :: 0 <= k < |r| ==> k + 1 < |days| && r[k] == days[k + 1]
    ensures var n := |FirstPerDay(day, list)|;
      |r| == if n <= 1 then 0 else if n < 6 then n - 1 else 5
  {
    Slice(FirstPerDay(day, list), 1, 6)
  }

  /** The strip never shows the day of the first forecast, and shows no day twice. */
  lemma NextFiveDaysSkipsToday<P>(day: int -> string, list: seq<Forecast<P>>)
    requires list != []
    ensures forall k :: 0 <= k < |NextFiveDays(day, list)| ==>
      day(NextFiveDays(day, list)[k].dt) != day(list[0].dt)
    ensures DistinctDays(day, NextFiveDays(day, list))
  {
    var days := FirstPerDay(day, list);
    FirstPerDayAtFirstIndices(day, list);
    var p := FirstIndices(day, list);
    assert FirstOfDay(day, list, 0);
    assert 0 in p;
    var r := NextFiveDays(day, list);
    assert p[0] == 0 by {
      var m :| 0 <= m < |p| && p[m] == 0;
      assert FirstOfDay(day, list, p[0]);
      assert p[0] <= p[m];
    }
    assert days[0] == list[0];
    forall k | 0 <= k < |r| ensures day(r[k].dt) != day(list[0].dt) {
      assert r[k] == days[k + 1];
    }
    forall k, l | 0 <= k < l < |r| ensures day(r[k].dt) != day(r[l].dt) {
      assert r[k] == days[k + 1] && r[l] == days[l + 1];
    }
  }
}

=== FILE: js_text.dfy ===
/**
 The string primitives of JavaScript that the city search relies on and that can be
 stated exactly: `String.prototype.trim`, `String.prototype.includes` and
 `String.prototype.replace` with a one-character string pattern (first occurrence only).
 */
module JsText {

  /** The code points `trim` strips: the ECMAScript WhiteSpace production (tab, vertical
      tab, form feed, space, no-break space, byte order mark and the Unicode category Zs)
      and the LineTerminator production (line feed, carriage return, U+2028, U+2029). */
  predicate IsTrimmable(c: char)
  {
    || c == '\U{0009}' || c == '\U{000B}' || c == '\U{000C}' || c == ' '
    || c == '\U{00A0}' || c == '\U{FEFF}' || c == '\U{1680}'
    || ('\U{2000}' <= c <= '\U{200A}')
    || c == '\U{202F}' || c == '\U{205F}' || c == '\U{3000}'
    || c == '\n' || c == '\r' || c == '\U{2028}' || c == '\U{2029}'
  }

  /** Every character of `s` is stripped by `trim`. */
  ghost predicate Blank(s: string)
  {
    forall k :: 0 <= k < |s| ==> IsTrimmable(s[k])
  }

  /** `s` neither starts nor ends with a strippable character. */
  ghost predicate Tight(s: string)
  {
    s == [] || (!IsTrimmable(s[0]) && !IsTrimmable(s[|s| - 1]))
  }

  /** `r` sits at offset `i` of `s` with only strippable characters around it. */
  ghost predicate Frames(s: string, i: int, r: string)
  {
    && 0 <= i && i + |r| <= |s|
    && s[i..i + |r|] == r
    && Blank(s[..i]) && Blank(s[i + |r|..])
  }

  function TrimStart(s: string): (r: string)
    ensures |r| <= |s|
  {
    if s == [] || !IsTrimmable(s[0]) then s else TrimStart(s[1..])
  }

  function TrimEnd(s: string): (r: string)
    ensures |r| <= |s|
  {
    if s == [] || !IsTrimmable(s[|s| - 1]) then s else TrimEnd(s[..|s| - 1])
  }

  lemma {:induction false} TrimStartCuts(s: string)
    ensures var r := TrimStart(s);
      && r == s[|s| - |r|..]
      && Blank(s[..|s| - |r|])
      && (r == [] || !IsTrimmable(r[0]))
  {
    if s != [] && IsTrimmable(s[0]) {
      TrimStartCuts(s[1..]);
      assert TrimStart(s) == TrimStart(s[1..]);
      BlankSuffixCons(s, TrimStart(s[1..]));
    }
  }

  /** A blank cut in front of `r` in `s[1..]` grows by a strippable `s[0]`. */
  lemma BlankSuffixCons(s: string, r: string)
    requires s != [] && IsTrimmable(s[0])
    requires |r| < |s| && r == s[1..][|s| - 1 - |r|..] && Blank(s[1..][..|s| - 1 - |r|])
    ensures r == s[|s| - |r|..] && Blank(s[..|s| - |r|])
  {
    var cut := s[1..][..|s| - 1 - |r|];
    assert s[..|s| - |r|] == [s[0]] + cut;
    BlankCons(s[0], cut);
  }

  lemma {:induction false} TrimEndCuts(s: string)
    ensures var r := TrimEnd(s);
      && r == s[..|r|]
      && Blank(s[|r|..])
      && (r == [] || !IsTrimmable(r[|r| - 1]))
  {
    if s != [] && IsTrimmable(s[|s| - 1]) {
      var r := TrimEnd(s[..|s| - 1]);
      TrimEndCuts(s[..|s| - 1]);
      var cut := s[..|s| - 1][|r|..];
      assert s[|r|..] == cut + [s[|s| - 1]];
      BlankSnoc(cut, s[|s| - 1]);
    }
  }

  lemma BlankCons(c: char, s: string)
    requires IsTrimmable(c) && Blank(s)
    ensures Blank([c] + s)
  {
  }

  lemma BlankSnoc(s: string, c: char)
    requires IsTrimmable(c) && Blank(s)
    ensures Blank(s + [c])
  {
  }

  /** `String.prototype.trim`. */
  function Trim(s: string): (r: string)
    ensures |r| <= |s|
  {
    TrimEnd(TrimStart(s))
  }

  /** What `trim` returns: the part of `s` left once the strippable characters on both
      ends are cut off. With `TrimOfPadded` this pins `Trim` down completely. */
  lemma TrimFrames(s: string)
    ensures Tight(Trim(s))
    ensures exists i :: Frames(s, i, Trim(s))
  {
    var m := TrimStart(s);
    var r := TrimEnd(m);
    var i := |s| - |m|;
    TrimStartCuts(s);
    TrimEndCuts(m);
    assert s[i..i + |r|] == r;
    assert s[i + |r|..] == m[|r|..];
    assert Frames(s, i, r);
  }

  lemma {:induction false} TrimStartSkipsBlank(a: string, m: string)
    requires Blank(a)
    requires m == [] || !IsTrimmable(m[0])
    ensures TrimStart(a + m) == m
    decreases |a|
  {
    if a == [] {
      assert a + m == m;
    } else {
      assert (a + m)[1..] == a[1..] + m;
      TrimStartSkipsBlank(a[1..], m);
    }
  }

  lemma {:induction false} TrimEndSkipsBlank(m: string, b: string)
    requires Blank(b)
    requires m == [] || !IsTrimmable(m[|m| - 1])
    ensures TrimEnd(m + b) == m
    decreases |b|
  {
    if b == [] {
      assert m + b == m;
    } else {
      var n := |b| - 1;
      assert (m + b)[..|m + b| - 1] == m + b[..n];
      TrimEndSkipsBlank(m, b[..n]);
    }
  }

  /** A string padded with strippable characters on both sides trims back to its core. */
  lemma TrimOfPadded(a: string, m: string, b: string)
    requires Blank(a) && Blank(b) && Tight(m)
    ensures Trim(a + m + b) == m
  {
    if m == [] {
      assert a + m + b == a + b;
      assert Blank(a + b);
      TrimStartSkipsBlank(a + b, []);
      assert a + b + [] == a + b;
      assert TrimStart(a + b) == [];
    } else {
      assert a + m + b == a + (m + b);
      TrimStartSkipsBlank(a, m + b);
      TrimEndSkipsBlank(m, b);
    }
  }

  /** Trimming twice is trimming once. */
  lemma TrimIdempotent(s: string)
    ensures Trim(Trim(s)) == Trim(s)
  {
    var r := Trim(s);
    TrimFrames(s);
    assert [] + r + [] == r;
    TrimOfPadded([], r, []);
  }

  /** A code point's share of `length`: two UTF-16 code units above U+FFFF, one below. */
  function CodeUnits(c: char): nat
  {
    if c as int >= 0x1_0000 then 2 else 1
  }

  /** `s.length`: the number of UTF-16 code units of `s`, which exceeds the number of code
      points by one for every code point above U+FFFF. */
  function Length(s: string): (n: nat)
    ensures |s| <= n <= 2 * |s|
  {
    if s == [] then 0 else CodeUnits(s[0]) + Length(s[1..])
  }

  lemma {:induction false} LengthAppend(a: string, b: string)
    ensures Length(a + b) == Length(a) + Length(b)
    decreases |a|
  {
    if a == [] {
      assert a + b == b;
    } else {
      assert (a + b)[0] == a[0];
      assert (a + b)[1..] == a[1..] + b;
      LengthAppend(a[1..], b);
    }
  }

  /** A single code point is one code unit, or two above U+FFFF (a surrogate pair). With
      `LengthAppend` this fixes `Length` on every text. */
  lemma LengthOfChar(c: char)
    ensures Length([c]) == if c as int >= 0x1_0000 then 2 else 1
  {
    assert [c][1..] == [];
  }

  /** `length` equals the number of code points exactly when no code point lies above
      U+FFFF. */
  lemma {:induction false} LengthIsCodePoints(s: string)
    ensures Length(s) == |s| <==> forall k :: 0 <= k < |s| ==> s[k] as int < 0x1_0000
  {
    if s != [] {
      LengthIsCodePoints(s[1..]);
      assert forall k :: 1 <= k < |s| ==> s[k] == s[1..][k - 1];
      if s[0] as int >= 0x1_0000 {
        assert Length(s) == 2 + Length(s[1..]) >= |s| + 1;
      }
    }
  }

  /** Trimming never makes a text longer in code units. */
  lemma TrimLength(s: string)
    ensures Length(Trim(s)) <= Length(s)
  {
    TrimFrames(s);
    var r := Trim(s);
    var i :| Frames(s, i, r);
    assert s == s[..i] + r + s[i + |r|..];
    LengthAppend(s[..i] + r, s[i + |r|..]);
    LengthAppend(s[..i], r);
  }

  /** `q` occurs in `s` starting at index `i`. */
  ghost predicate OccursAt(q: string, s: string, i: int)
  {
    0 <= i && i + |q| <= |s| && s[i..i + |q|] == q
  }

  /** `q` is a substring of `s`. */
  ghost predicate Contains(s: string, q: string)
  {
    exists i :: OccursAt(q, s, i)
  }

  /** `s.includes(q)`: a left-to-right scan for `q`. */
  function Includes(s: string, q: string): bool
    decreases |s|
  {
    if |q| > |s| then false
    else if s[..|q|] == q then true
    else Includes(s[1..], q)
  }

  lemma {:induction false} IncludesIffContains(s: string, q: string)
    ensures Includes(s, q) <==> Contains(s, q)
    decreases |s|
  {
    if |q| > |s| {
    } else if s[..|q|] == q {
      assert OccursAt(q, s, 0);
    } else {
      IncludesIffContains(s[1..], q);
      ContainsPastHead(s, q);
    }
  }

  /** When `q` is not at the start of `s`, it occurs in `s` exactly when it occurs in the
      rest of `s`. */
  lemma ContainsPastHead(s: string, q: string)
    requires |q| <= |s| && s[..|q|] != q
    ensures Contains(s, q) <==> Contains(s[1..], q)
  {
    if Contains(s, q) {
      var i :| OccursAt(q, s, i);
      assert i != 0;
      assert s[1..][i - 1..i - 1 + |q|] == s[i..i + |q|];
      assert OccursAt(q, s[1..], i - 1);
    }
    if Contains(s[1..], q) {
      var j :| OccursAt(q, s[1..], j);
      assert s[j + 1..j + 1 + |q|] == s[1..][j..j + |q|];
      assert OccursAt(q, s, j + 1);
    }
  }

  /** Index of the first `a` in `s`. */
  function FirstIndexOf(s: string, a: char): (i: nat)
    requires a in s
    ensures i < |s| && s[i] == a
    ensures forall j :: 0 <= j < i ==> s[j] != a
  {
    if s[0] == a then 0
    else
      assert a in s[1..] by {
        var k :| 0 <= k < |s| && s[k] == a;
        assert s[1..][k - 1] == a;
      }
      1 + FirstIndexOf(s[1..], a)
  }

  /** `s.replace(a, b)` for one-character strings `a` and `b`: only the first
      occurrence is replaced. */
  function ReplaceFirst(s: string, a: char, b: char): (r: string)
    ensures |r| == |s|
    ensures a !in s ==> r == s
    ensures a in s ==> r == s[FirstIndexOf(s, a) := b]
  {
    if s == [] then []
    else if s[0] == a then [b] + s[1..]
    else
      assert a in s ==> a in s[1..] by {
        if a in s {
          var k :| 0 <= k < |s| && s[k] == a;
          assert s[1..][k - 1] == a;
        }
      }
      [s[0]] + ReplaceFirst(s[1..], a, b)
  }

  /** A decimal written with a single comma as separator comes out with no comma left,
      and with exactly one more `b` than before. */
  lemma {:induction false} ReplaceSoleOccurrence(s: string, a: char, b: char)
    requires multiset(s)[a] <= 1
    requires a != b
    ensures a !in ReplaceFirst(s, a, b)
    ensures multiset(ReplaceFirst(s, a, b))[b] == multiset(s)[b] + (if a in s then 1 else 0)
  {
    if s != [] {
      assert s == [s[0]] + s[1..];
      var r := ReplaceFirst(s, a, b);
      if s[0] == a {
        assert multiset(s[1..])[a] == 0;
        assert r == [b] + s[1..];
      } else {
        ReplaceSoleOccurrence(s[1..], a, b);
        assert r == [s[0]] + ReplaceFirst(s[1..], a, b);
        assert a in s <==> a in s[1..];
      }
    }
  }
}

=== FILE: localities.dfy ===
/**
 The locality list (helpers/cities.jsx): municipality records of the national registry
 turned into autocomplete entries `{label, value, lat, lon, state, stateSigla}`, the
 ones without a name or an id dropped, the rest ordered by name.
 */
module Localities {
  import opened Options
  import opened JsText
  import opened SeqOps
  import opened Platform

  /** The registry's nested federative unit, region and micro-region objects; an absent
      object or field is `None`. */
  datatype Uf = Uf(nome: Option<string>, sigla: Option<string>)
  datatype Mesorregiao = Mesorregiao(uf: Option<Uf>)
  datatype Microrregiao = Microrregiao(mesorregiao: Option<Mesorregiao>)

  /** A registry record; coordinates arrive as text, possibly with a decimal comma. */
  datatype RawCity = RawCity(
    nome: Option<string>,
    id: Option<int>,
    latitude: Option<string>,
    longitude: Option<string>,
    microrregiao: Option<Microrregiao>)

  /** An autocomplete entry; `None` stands for `undefined` or `null`. The field `name`
      is the entry's `label` (a reserved word in Dafny). */
  datatype Entry = Entry(
    name: Option<string>,
    value: Option<int>,
    lat: Option<Num>,
    lon: Option<Num>,
    state: Option<string>,
    stateSigla: Option<string>)

  /** JavaScript truthiness of an optional string: present and not empty. */
  predicate Present(t: Option<string>)
  {
    t.Some? && t.value != ""
  }

  /** `x || null` for an optional string. */
  function OrNull(t: Option<string>): Option<string>
  {
    if Present(t) then t else None
  }

  /** `city?.microrregiao?.mesorregiao?.UF`. */
  function UfOf(c: RawCity): Option<Uf>
  {
    match c.microrregiao
    case None => None
    case Some(micro) =>
      match micro.mesorregiao
      case None => None
      case Some(meso) => meso.uf
  }

  /** `x ? parseFloat(String(x).replace(',', '.')) : null`. */
  function Coordinate(host: Host, t: Option<string>): (r: Option<Num>)
    ensures r.Some? <==> Present(t)
    ensures r.Some? ==> r.value == host.parseFloat(ReplaceFirst(t.value, ',', '.'))
  {
    if Present(t) then Some(host.parseFloat(ReplaceFirst(t.value, ',', '.'))) else None
  }

  /** The `map` step of `parseCities`. */
  function ToEntry(host: Host, c: RawCity): (e: Entry)
    ensures e.name == c.nome && e.value == c.id
    ensures e.lat.Some? <==> Present(c.latitude)
    ensures e.lon.Some? <==> Present(c.longitude)
    ensures e.lat.Some? ==> e.lat.value == host.parseFloat(ReplaceFirst(c.latitude.value, ',', '.'))
    ensures e.lon.Some? ==> e.lon.value == host.parseFloat(ReplaceFirst(c.longitude.value, ',', '.'))
    ensures e.state.Some? <==> UfOf(c).Some? && Present(UfOf(c).value.nome)
    ensures e.stateSigla.Some? <==> UfOf(c).Some? && Present(UfOf(c).value.sigla)
    ensures e.state.Some? ==> e.state == UfOf(c).value.nome
    ensures e.stateSigla.Some? ==> e.stateSigla == UfOf(c).value.sigla
  {
    var uf := UfOf(c);
    Entry(
      c.nome,
      c.id,
      Coordinate(host, c.latitude),
      Coordinate(host, c.longitude),
      if uf.Some? then OrNull(uf.value.nome) else None,
      if uf.Some? then OrNull(uf.value.sigla) else None)
  }

  /** The `filter` step: `city.label && city.value` (an id of 0 is falsy). */
  predicate Kept(e: Entry)
  {
    Present(e.name) && e.value.Some? && e.value.value != 0
  }

  function NameText(e: Entry): string
  {
    if e.name.Some? then e.name.value else ""
  }

  /** `sortByLabelAscending`: `a.label.localeCompare(b.label) <= 0`. */
  function ByLabel(host: Host): (Entry, Entry) -> bool
  {
    (a: Entry, b: Entry) => LocaleLe(host)(NameText(a), NameText(b))
  }

  function Mapped(host: Host, raw: seq<RawCity>): (m: seq<Entry>)
    ensures |m| == |raw|
    ensures forall i :: 0 <= i < |raw| ==> m[i] == ToEntry(host, raw[i])
  {
    seq(|raw|, i requires 0 <= i < |raw| => ToEntry(host, raw[i]))
  }

  /** `parseCities`: map, filter, sort. */
  function ParseCities(host: Host, raw: seq<RawCity>): (r: seq<Entry>)
    ensures forall k :: 0 <= k < |r| ==> Kept(r[k])
    ensures multiset(r) == multiset(Filter(Mapped(host, raw), Kept))
  {
    var kept := Filter(Mapped(host, raw), Kept);
    FilterMembers(Mapped(host, raw), Kept);
    var r := SortBy(kept, ByLabel(host));
    assert forall k :: 0 <= k < |r| ==> r[k] in multiset(kept);
    r
  }

  /** Every entry comes from a registry record with a name and a non-zero id, and every
      such record yields an entry: nothing is added, nothing kept is lost. */
  lemma ParseCitiesEntries(host: Host, raw: seq<RawCity>, e: Entry)
    ensures e in ParseCities(host, raw)
        <==> Kept(e) && exists i :: 0 <= i < |raw| && ToEntry(host, raw[i]) == e
  {
    var m := Mapped(host, raw);
    var f := Filter(m, Kept);
    FilterMembers(m, Kept);
    var r := ParseCities(host, raw);
    assert e in r <==> e in multiset(r);
    assert e in f <==> e in multiset(f);
    if e in f {
      var k :| 0 <= k < |f| && f[k] == e;
      assert f[k] in m;
    }
    if Kept(e) && exists i :: 0 <= i < |raw| && ToEntry(host, raw[i]) == e {
      var i :| 0 <= i < |raw| && ToEntry(host, raw[i]) == e;
      assert m[i] == e;
    }
  }

  /** Each registry record that survives the filter appears exactly as often as it does
      in the registry list (duplicates are neither merged nor multiplied). */
  lemma ParseCitiesCount(host: Host, raw: seq<RawCity>)
    ensures |ParseCities(host, raw)| == |Positions(Mapped(host, raw), Kept)|
  {
    var r := ParseCities(host, raw);
    var f := Filter(Mapped(host, raw), Kept);
    assert |multiset(r)| == |multiset(f)|;
    FilterSelectsPositions(Mapped(host, raw), Kept);
  }

  lemma ByLabelPreorder(host: Host)
    requires LocaleOrder(host)
    ensures TotalPreorder(ByLabel(host))
  {
    var le := ByLabel(host);
    forall x, y ensures le(x, y) || le(y, x) {
      assert LocaleLe(host)(NameText(x), NameText(y)) || LocaleLe(host)(NameText(y), NameText(x));
    }
    forall x, y, z | le(x, y) && le(y, z) ensures le(x, z) {
      var a, b, c := NameText(x), NameText(y), NameText(z);
      assert LocaleLe(host)(a, b) && LocaleLe(host)(b, c);
      assert LocaleLe(host)(a, c);
    }
  }

  /** With a consistent `localeCompare` the entries come out in ascending label order. */
  lemma ParseCitiesSorted(host: Host, raw: seq<RawCity>)
    requires LocaleOrder(host)
    ensures forall i, j :: 0 <= i < j < |ParseCities(host, raw)| ==>
      host.compare(NameText(ParseCities(host, raw)[i]), NameText(ParseCities(host, raw)[j])) <= 0
  {
    ByLabelPreorder(host);
    SortBySorted(Filter(Mapped(host, raw), Kept), ByLabel(host));
  }

  /** Entries whose labels `localeCompare` ranks equal (municipalities sharing a name in
      different states) stay in registry order. */
  lemma ParseCitiesStable(host: Host, raw: seq<RawCity>, k: Entry)
    requires LocaleOrder(host)
    ensures Filter(ParseCities(host, raw), LevelWith(ByLabel(host), k))
         == Filter(Filter(Mapped(host, raw), Kept), LevelWith(ByLabel(host), k))
  {
    ByLabelPreorder(host);
    SortByStable(Filter(Mapped(host, raw), Kept), ByLabel(host), k);
  }

  /** An entry has coordinates exactly when the record carries non-empty coordinate text,
      and a coordinate written with one decimal comma reaches `parseFloat` with a dot. */
  lemma EntryCoordinates(host: Host, c: RawCity)
    ensures Present(c.latitude) && multiset(c.latitude.value)[','] <= 1 ==>
      && ToEntry(host, c).lat == Some(host.parseFloat(ReplaceFirst(c.latitude.value, ',', '.')))
      && ',' !in ReplaceFirst(c.latitude.value, ',', '.')
    ensures Present(c.longitude) && multiset(c.longitude.value)[','] <= 1 ==>
      && ToEntry(host, c).lon == Some(host.parseFloat(ReplaceFirst(c.longitude.value, ',', '.')))
      && ',' !in ReplaceFirst(c.longitude.value, ',', '.')
  {
    if Present(c.latitude) && multiset(c.latitude.value)[','] <= 1 {
      ReplaceSoleOccurrence(c.latitude.value, ',', '.');
    }
    if Present(c.longitude) && multiset(c.longitude.value)[','] <= 1 {
      ReplaceSoleOccurrence(c.longitude.value, ',', '.');
    }
  }
}

=== FILE: options.dfy ===
/** JavaScript's `undefined` / `null` for a value that may be absent. */
module Options {

  datatype Option<+T> = None | Some(value: T)
}

=== FILE: platform.dfy ===
/**
 The browser primitives the city search calls but whose definitions lie outside this
 model. They are carried as function values, so every property proved here holds
 whatever they compute.
 */
module Platform {
  import opened SeqOps

  /** A JavaScript number as far as the search cares: `NaN`, an infinity, or a finite value. */
  datatype Num = NaN | Infinity(negative: bool) | Finite(value: real)

  /** JavaScript truthiness of a number: `NaN` and zero are falsy. */
  predicate Truthy(n: Num)
  {
    match n
    case NaN => false
    case Infinity(_) => true
    case Finite(v) => v != 0.0
  }

  datatype Host = Host(
    /** `s.normalize('NFD')`: canonical decomposition. */
    nfd: string -> string,
    /** `s.toLowerCase()`. */
    lower: string -> string,
    /** `a.localeCompare(b)`: negative, zero or positive. */
    compare: (string, string) -> int,
    /** `parseFloat(s)`. */
    parseFloat: string -> Num)

  /** "`a` sorts no later than `b`" under `localeCompare`. */
  function LocaleLe(host: Host): (string, string) -> bool
  {
    (a: string, b: string) => host.compare(a, b) <= 0
  }

  /** `localeCompare` ranks strings consistently (what `Array.prototype.sort` relies on). */
  ghost predicate LocaleOrder(host: Host)
  {
    TotalPreorder(LocaleLe(host))
  }
}

=== FILE: seq_ops.dfy ===
/**
 Sequence operations the components share: `Array.prototype.filter`, `slice(0, n)`, and
 `Array.prototype.sort` (stable, driven by a caller-supplied comparison).
 */
module SeqOps {

  /** `s.filter(keep)`. */
  function Filter<T>(s: seq<T>, keep: T -> bool): (r: seq<T>)
    ensures |r| <= |s|
  {
    if s == [] then []
    else (if keep(s[0]) then [s[0]] else []) + Filter(s[1..], keep)
  }

  /** `filter` keeps only elements that pass, keeps every element that passes, and adds
      nothing. */
  lemma {:induction false} FilterMembers<T>(s: seq<T>, keep: T -> bool)
    ensures var r := Filter(s, keep);
      && (forall k :: 0 <= k < |r| ==> r[k] in s && keep(r[k]))
      && (forall i :: 0 <= i < |s| && keep(s[i]) ==> s[i] in r)
      && multiset(r) <= multiset(s)
  {
    if s != [] {
      var t := s[1..];
      var ft := Filter(t, keep);
      FilterMembers(t, keep);
      assert s == [s[0]] + t;
      var r := Filter(s, keep);
      if keep(s[0]) {
        assert r == [s[0]] + ft;
        forall k | 0 <= k < |r| ensures r[k] in s && keep(r[k]) {
          if k > 0 { assert r[k] == ft[k - 1]; }
        }
        forall i | 0 <= i < |s| && keep(s[i]) ensures s[i] in r {
          if i > 0 { assert s[i] == t[i - 1]; }
        }
      } else {
        assert r == ft;
        forall i | 0 <= i < |s| && keep(s[i]) ensures s[i] in r {
          assert s[i] == t[i - 1];
        }
      }
    }
  }

  lemma {:induction false} FilterAppend<T>(a: seq<T>, b: seq<T>, keep: T -> bool)
    ensures Filter(a + b, keep) == Filter(a, keep) + Filter(b, keep)
    decreases |a|
  {
    if a == [] {
      assert a + b == b;
    } else {
      var head := if keep(a[0]) then [a[0]] else [];
      assert (a + b)[0] == a[0];
      assert (a + b)[1..] == a[1..] + b;
      FilterAppend(a[1..], b, keep);
      ConcatAssoc(head, Filter(a[1..], keep), Filter(b, keep));
    }
  }

  /** The indices of `s` whose element `keep` accepts, in increasing order. */
  function Positions<T>(s: seq<T>, keep: T -> bool): (p: seq<int>)
    ensures forall k :: 0 <= k < |p| ==> 0 <= p[k] < |s| && keep(s[p[k]])
    ensures forall k, l :: 0 <= k < l < |p| ==> p[k] < p[l]
    ensures forall i :: 0 <= i < |s| && keep(s[i]) ==> i in p
  {
    if s == [] then []
    else
      var n := |s| - 1;
      var pre := Positions(s[..n], keep);
      assert forall k :: 0 <= k < |pre| ==> s[pre[k]] == s[..n][pre[k]];
      pre + (if keep(s[n]) then [n] else [])
  }

  /** The k-th element that `filter` keeps is the element at the k-th accepted index: the
      result holds exactly the accepted elements, each once, in their original order. */
  lemma {:induction false} FilterSelectsPositions<T>(s: seq<T>, keep: T -> bool)
    ensures |Filter(s, keep)| == |Positions(s, keep)|
    ensures forall k :: 0 <= k < |Positions(s, keep)| ==> Filter(s, keep)[k] == s[Positions(s, keep)[k]]
  {
    if s != [] {
      var n := |s| - 1;
      assert s == s[..n] + [s[n]];
      FilterAppend(s[..n], [s[n]], keep);
      FilterSelectsPositions(s[..n], keep);
    }
  }

  /** `s.slice(0, n)`. */
  function Take<T>(s: seq<T>, n: nat): (r: seq<T>)
    ensures |r| == if |s| < n then |s| else n
    ensures r == s[..|r|]
  {
    if |s| <= n then s else s[..n]
  }

  /** `s.slice(from, to)` for non-negative bounds (JavaScript clamps them to the length). */
  function Slice<T>(s: seq<T>, from: nat, to: nat): (r: seq<T>)
    ensures |r| <= if to < from then 0 else to - from
    ensures from <= to <= |s| ==> r == s[from..to]
    ensures from <= |s| < to ==> r == s[from..]
    ensures |s| <= from || to <= from ==> r == []
  {
    var hi := if to < |s| then to else |s|;
    var lo := if from < hi then from else hi;
    s[lo..hi]
  }

  ghost predicate TotalPreorder<T(!new)>(le: (T, T) -> bool)
  {
    && (forall x, y :: le(x, y) || le(y, x))
    && (forall x, y, z :: le(x, y) && le(y, z) ==> le(x, z))
  }

  ghost predicate SortedBy<T>(s: seq<T>, le: (T, T) -> bool)
  {
    forall i, j :: 0 <= i < j < |s| ==> le(s[i], s[j])
  }

  /** The elements `le` ranks level with `k`. */
  function LevelWith<T>(le: (T, T) -> bool, k: T): T -> bool
  {
    x => le(x, k) && le(k, x)
  }

  /** Places `x` after every element of `s` ranked no higher than `x`. */
  function Insert<T>(x: T, s: seq<T>, le: (T, T) -> bool): (r: seq<T>)
    ensures multiset(r) == multiset(s) + multiset{x}
  {
    if s == [] then [x]
    else if le(s[0], x) then
      assert s == [s[0]] + s[1..];
      [s[0]] + Insert(x, s[1..], le)
    else [x] + s
  }

  /** `Array.prototype.sort` with comparison `le`: insertion of each element, in input
      order, after the elements already placed that rank no higher. */
  function SortBy<T>(s: seq<T>, le: (T, T) -> bool): (r: seq<T>)
    ensures multiset(r) == multiset(s)
  {
    if s == [] then []
    else
      var n := |s| - 1;
      assert s == s[..n] + [s[n]];
      Insert(s[n], SortBy(s[..n], le), le)
  }

  lemma {:induction false} InsertSorted<T(!new)>(x: T, s: seq<T>, le: (T, T) -> bool)
    requires TotalPreorder(le)
    requires SortedBy(s, le)
    ensures SortedBy(Insert(x, s, le), le)
  {
    if s != [] {
      var r := Insert(x, s, le);
      if le(s[0], x) {
        var tail := Insert(x, s[1..], le);
        InsertSorted(x, s[1..], le);
        assert forall y :: y in tail ==> le(s[0], y) by {
          forall y | y in tail ensures le(s[0], y) {
            assert y in multiset(tail);
            if y != x {
              assert y in s[1..];
            }
          }
        }
        assert r == [s[0]] + tail;
        forall i, j | 0 <= i < j < |r| ensures le(r[i], r[j]) {
          if i == 0 {
            assert r[j] == tail[j - 1];
            assert r[j] in tail;
          } else {
            assert r[i] == tail[i - 1] && r[j] == tail[j - 1];
          }
        }
      } else {
        assert le(x, s[0]);
        forall j | 0 <= j < |s| ensures le(x, s[j]) {
          if j > 0 {
            assert le(s[0], s[j]);
          }
        }
      }
    }
  }

  /** Under a consistent comparison the sort's output is ordered. */
  lemma {:induction false} SortBySorted<T(!new)>(s: seq<T>, le: (T, T) -> bool)
    requires TotalPreorder(le)
    ensures SortedBy(SortBy(s, le), le)
  {
    if s != [] {
      var n := |s| - 1;
      SortBySorted(s[..n], le);
      InsertSorted(s[n], SortBy(s[..n], le), le);
    }
  }

  /** Nothing in `s` ranks level with `k` when the first element already ranks above
      an element `x` that is level with `k`. */
  lemma NoneLevelAbove<T(!new)>(x: T, s: seq<T>, le: (T, T) -> bool, k: T)
    requires TotalPreorder(le)
    requires SortedBy(s, le)
    requires s != [] && !le(s[0], x)
    requires le(x, k) && le(k, x)
    ensures Filter(s, LevelWith(le, k)) == []
  {
  }

  lemma ConcatAssoc<T>(a: seq<T>, b: seq<T>, c: seq<T>)
    ensures a + (b + c) == (a + b) + c
  {
  }

  /** Filtering commutes with inserting past the head of the sequence. */
  lemma InsertPastHead<T>(x: T, s: seq<T>, le: (T, T) -> bool, p: T -> bool)
    requires s != [] && le(s[0], x)
    requires Filter(Insert(x, s[1..], le), p) == Filter(s[1..], p) + Filter([x], p)
    ensures Filter(Insert(x, s, le), p) == Filter(s, p) + Filter([x], p)
  {
    var rest := Insert(x, s[1..], le);
    var head := Filter([s[0]], p);
    assert Insert(x, s, le) == [s[0]] + rest;
    FilterAppend([s[0]], rest, p);
    assert head == if p(s[0]) then [s[0]] else [];
    assert Filter(s, p) == head + Filter(s[1..], p);
    ConcatAssoc(head, Filter(s[1..], p), Filter([x], p));
  }

  lemma {:induction false} InsertStable<T(!new)>(x: T, s: seq<T>, le: (T, T) -> bool, k: T)
    requires TotalPreorder(le)
    requires SortedBy(s, le)
    ensures Filter(Insert(x, s, le), LevelWith(le, k))
         == Filter(s, LevelWith(le, k)) + Filter([x], LevelWith(le, k))
  {
    var p := LevelWith(le, k);
    if s == [] {
    } else if le(s[0], x) {
      InsertStable(x, s[1..], le, k);
      InsertPastHead(x, s, le, p);
    } else {
      assert Insert(x, s, le) == [x] + s;
      FilterAppend([x], s, p);
      if p(x) {
        NoneLevelAbove(x, s, le, k);
      }
    }
  }

  /** The sort is stable: elements that rank level keep their input order. */
  lemma {:induction false} SortByStable<T(!new)>(s: seq<T>, le: (T, T) -> bool, k: T)
    requires TotalPreorder(le)
    ensures Filter(SortBy(s, le), LevelWith(le, k)) == Filter(s, LevelWith(le, k))
  {
    if s != [] {
      var n := |s| - 1;
      var sorted := SortBy(s[..n], le);
      SortByStable(s[..n], le, k);
      SortBySorted(s[..n], le);
      InsertStable(s[n], sorted, le, k);
      SortByLast(s, le, LevelWith(le, k));
    }
  }

  /** Filtering the sort of a non-empty sequence splits at its last element, given the same
      split for the sort of the rest. */
  lemma SortByLast<T>(s: seq<T>, le: (T, T) -> bool, p: T -> bool)
    requires s != []
    requires Filter(SortBy(s[..|s| - 1], le), p) == Filter(s[..|s| - 1], p)
    requires Filter(Insert(s[|s| - 1], SortBy(s[..|s| - 1], le), le), p)
          == Filter(SortBy(s[..|s| - 1], le), p) + Filter([s[|s| - 1]], p)
    ensures Filter(SortBy(s, le), p) == Filter(s, p)
  {
    var init, last := s[..|s| - 1], s[|s| - 1];
    assert SortBy(s, le) == Insert(last, SortBy(init, le), le);
    SplitLast(s);
    FilterAppend(init, [last], p);
  }

  lemma SplitLast<T>(s: seq<T>)
    requires s != []
    ensures s == s[..|s| - 1] + [s[|s| - 1]]
  {
  }
}
